=== FILE: README.md ===
# MySQLOO transaction core, modelled in Dafny

MySQLOO is a MySQL binding for Garry's Mod's Lua. A *transaction* object
collects plain queries with `addQuery`. `start` snapshots that queue into a
`TransactionData` batch, which a worker thread runs with
`Transaction::executeStatement`. The run goes as follows:

- It turns the database's auto-reconnect flag off, and a scope guard restores it on every exit.
- It switches the connection to manual commit.
- It runs the statements in order and stops at the first failure.
- It commits when every statement succeeded.
- It retries once when four things hold: auto-reconnect was on when the run began, the batch was not already retried, the error is a lost connection (`CR_SERVER_LOST` or `CR_SERVER_GONE_ERROR`), and a ping then succeeds. Any other failure rolls back.
- It then hands every finished statement to the completion queue in batch order.
- Finally it switches autocommit back on and marks the batch complete.

Around the run sit the query object's bookkeeping:

- the list of runs still in flight (`addQueryData`, `onQueryDataFinished`, `isRunning`);
- `start` and `abort`;
- the option word (`setOption`);
- the choice of which Lua callback fires (`doCallback`, and the abort callback);
- the wrappers that turn C API return codes into `MySQLException`s.

The model is functional:

- Every object is an immutable datatype and every operation is a function returning the new state.
- Calls into Lua are returned as `Host.HostEvent`s.
- The connection is a scripted oracle (`TransactionRun.Connection`). It gives, for the first attempt and for the retry, the outcome of:
  - switching autocommit off;
  - each statement;
  - the commit;
  - the ping.
- The run returns its final batch and the trace of the calls it made (`TransactionRun.RunEvent`): SetReconnect, Autocommit, Exec, Commit, Ping, Rollback, Push and Notify.
- The retry is the source's own recursion. It terminates because the retried batch carries `retried == true`.

Modules, each following one part of the program:

| module | file | models |
|---|---|---|
| `Wrappers` | wrappers.dfy | `Option` / `Result` |
| `QueryData` | query_data.dfy | IQuery.h: status enums, option bits, `MySQLException`, `IQueryData` |
| `Host` | host.dfy | what the code asks of Lua, as events; the shared callback choice |
| `ClientApi` | client_api.dfy | the C API wrappers of IQuery.cpp and the client error codes |
| `IQuery` | iquery.dfy | IQuery.cpp: options, running list, start, abort, callback data |
| `Transaction` | transaction.dfy | Transaction.h, `addQuery`, `clearQueries`, `buildQueryData`, `doCallback` |
| `TransactionRun` | transaction_run.dfy | `executeStatement` as a function over a scripted connection |
| `RunProperties` | run_properties.dfy | the run's properties, stated over its trace and final batch |

## Model

| member | source | states |
|---|---|---|
| QueryData.WordHoldsExactlyItsOptions | MySQLOO/include/IQuery.h:26-31 | the options are the distinct bits 1, 2, 4, 8: a word built from a set of options has an option's bit set exactly when the option is in the set |
| QueryData.WordDeterminesOptions | MySQLOO/include/IQuery.h:26-31 | because the bits are distinct, two option sets with the same word are the same set |
| QueryData.ExceptionRoundTrip | MySQLOO/include/IQuery.h:34-42 | a `MySQLException` returns the code and message it was built with |
| QueryData.NewQueryData | MySQLOO/include/IQuery.h:140-150 | a fresh run is unfinished, NOT_RUNNING, result NONE, empty error, holds no callback references and is not first-data |
| QueryData.SettersAreIndependent | MySQLOO/include/IQuery.h:89-119 | for the four setters of the error text, finished flag, status and result status: setting one leaves the other three as they were, and any two of them commute |
| Host.SelectCallback | MySQLOO/source/Transaction.cpp:57-61 | at most one callback: the referenced function when its reference is non-zero, else the named callback only for first-data, else none |
| ClientApi.CommitFailureIsNotConnectionLost | MySQLOO/source/Transaction.cpp:104-114 | the "commit failed" error carries `CR_UNKNOWN_ERROR`, which is neither `CR_SERVER_LOST` nor `CR_SERVER_GONE_ERROR`, so it is never in the retry class |
| ClientApi.MysqlNextResult | MySQLOO/source/IQuery.cpp:192-202 | return 0 gives true; -1 gives false; any other value raises the errno and message exactly when errno is non-zero, else gives false |
| ClientApi.CheckedCall | MySQLOO/source/IQuery.cpp:32-39 | a zero return succeeds; a non-zero return raises the client's errno and message (also `mysqlQuery`, IQuery.cpp:171-178) |
| ClientApi.MysqlStoreResults | MySQLOO/source/IQuery.cpp:180-190 | a missing result set is an error exactly when errno is set; otherwise whatever was stored is returned |
| IQuery.NewIQuery | MySQLOO/source/IQuery.cpp:10-18 | a new query object has NAMED_FIELDS, INTERPRET_DATA and CACHE on and NUMERIC_FIELDS off (word 14), nothing running, no callback data, not started |
| IQuery.TruncateToInt | MySQLOO/source/IQuery.cpp:146 | the `(int)` cast of the Lua number truncates toward zero: the result is within 1 of the number and not farther from zero |
| IQuery.OptionBit | MySQLOO/source/IQuery.cpp:147-153 | an integer names an option exactly when it equals one of the four option bits |
| IQuery.ApplyOption | MySQLOO/source/IQuery.cpp:160-164 | after `|=` / `&= ~` the option is on exactly when requested and every other option keeps its state |
| IQuery.ApplyOptionIsBitUpdate | MySQLOO/source/IQuery.cpp:160-164 | on the option word, the update sets or clears exactly the named bit and keeps every other bit |
| IQuery.ApplyOptionIdempotent | MySQLOO/source/IQuery.cpp:160-164 | applying the same option change twice equals applying it once |
| IQuery.SetOption | MySQLOO/source/IQuery.cpp:140-166 | accepted exactly when the first argument is a number naming an option and a present second argument is a boolean; on success only the options change, by the named option, with `set` defaulting to true; a missing or non-number option is the argument-2 type error, a number naming no option is "Invalid option", and a present non-boolean second argument is the argument-3 type error, each exactly in its case |
| IQuery.SetOptionIdempotent | MySQLOO/source/IQuery.cpp:140-166 | repeating an accepted `setOption` call gives the same object as doing it once |
| IQuery.AddQueryData | MySQLOO/source/IQuery.cpp:204-214 | the run goes to the back of the running list, becomes first-data exactly when the object was never started (or already was), takes the four current callback references, and nothing else changes |
| IQuery.Start | MySQLOO/source/IQuery.cpp:42-57 | fails exactly on a disconnected database; otherwise holds the Lua object only if nothing was running, registers the run at the back with the object's four callback references, queues it and marks the object started; nothing else of the object or the run changes |
| IQuery.OnlyFirstStartIsFirstData | MySQLOO/source/IQuery.cpp:52-55 | the run registered by the first start is first-data and the run of a later start is not |
| IQuery.OnQueryDataFinished | MySQLOO/source/IQuery.cpp:215-237 | for a registered run: it leaves the running list, the object may be destroyed once the list is empty; the events are the unreference (exactly when the list became empty) followed by the release of the run's own non-zero references; all four become 0, nothing else changes |
| IQuery.IsRunning | MySQLOO/source/IQuery.cpp:60-66 | the object reports running exactly when some run is registered on it |
| IQuery.RunningTracksRegisteredData | MySQLOO/source/IQuery.cpp:60-66 | `isRunning` holds after registering a run, and after that run finishes it holds exactly when some other run was registered |
| IQuery.FreeReferences | MySQLOO/source/IQuery.cpp:221-232 | one release per non-zero reference the run holds, in the order onData, error, abort, success; every release names a non-zero reference of this run, and every such reference is released |
| IQuery.Released | MySQLOO/source/IQuery.cpp:233-236 | after the release the run holds no references and nothing else about it changes |
| IQuery.DropIds | MySQLOO/source/IQuery.cpp:121-123 | removing runs from the database queue keeps exactly the entries whose identity was not removed |
| IQuery.DropIdsAppend | MySQLOO/source/IQuery.cpp:121-123 | removal works entry by entry: removing from a concatenation is the concatenation of the removals, so order and repeated entries are kept |
| IQuery.RemoveIdsAppend | MySQLOO/source/IQuery.cpp:216 | removal from the running list works entry by entry in the same way, keeping order and repeated entries |
| IQuery.AbortCallback | MySQLOO/source/IQuery.cpp:127-131 | aborting a run fires its abort reference when non-zero, else `onAborted` when it is first-data, else nothing |
| IQuery.StillQueued | MySQLOO/source/IQuery.cpp:117-124 | the runs the loop finds in the database queue are runs of the copied list, in list order, each still queued when reached |
| IQuery.StillQueuedFindsQueued | MySQLOO/source/IQuery.cpp:117-124 | every queued run of the list (the first record with its identity) is found |
| IQuery.StillQueuedIds | MySQLOO/source/IQuery.cpp:117-124 | the identities found are exactly the list's identities that are in the queue |
| IQuery.AbortFrom | MySQLOO/source/IQuery.cpp:117-134 | the abort loop over the copied list: reports success exactly when some listed run was still queued; those runs leave the queue and the running list; the aborted runs are the found runs in order, each ABORTED with no references; the callbacks fired are their abort callbacks in the same order |
| IQuery.Abort | MySQLOO/source/IQuery.cpp:111-137 | returns true exactly when a running run was still in the database queue; the queue loses the object's runs; the running list loses the still-queued ones; the object may be destroyed when that empties it; the aborted runs are the still-queued runs in list order, each ABORTED with no references and still queued before; the callbacks fired are exactly their abort callbacks, in the same order; the only other host calls are letting go of the object and releasing references; nothing else of the object (options, started flag, callback data) changes |
| IQuery.AbortAbortsExactlyTheQueued | MySQLOO/source/IQuery.cpp:117-134 | the aborted runs' identities are exactly the registered identities that were in the queue |
| IQuery.AbortFiresEachQueuedCallback | MySQLOO/source/IQuery.cpp:124-132 | every registered run still queued is aborted and its own abort callback is among the events |
| IQuery.AbortFiresOnlyAbortCallbacks | MySQLOO/source/IQuery.cpp:124-132 | every callback fired is the abort callback of a registered run that was still queued |
| IQuery.SetCallbackData | MySQLOO/include/IQuery.h:54-56 | after attaching a run the object reports that run's result status and error text, and nothing else changes |
| IQuery.CallbackDataOnlyFromSetCallbackData | MySQLOO/include/IQuery.h:68-70 | `hasCallbackData` is false for a new object, true after `setCallbackData`, and unchanged by registering, starting, finishing or aborting runs |
| IQuery.GetResultStatus | MySQLOO/source/IQuery.cpp:22-27 | with no attached run the result is NONE |
| IQuery.Error | MySQLOO/source/IQuery.cpp:98-108 | an error text is returned exactly when a run is attached |
| Transaction.NewTransaction | MySQLOO/include/Transaction.h:23 | a new transaction has an empty queue |
| Transaction.NewTransactionData | MySQLOO/include/Transaction.h:26-31 | a new batch is empty, not retried, and carries the fresh-run defaults |
| Transaction.AddQuery | MySQLOO/source/Transaction.cpp:14-35 | refuses a non-query with its error text; otherwise appends exactly one (query, run) pair at the back, keeps earlier pairs, registers the run on the query object and holds it only if nothing was running; the run takes the query object's four callback references and is otherwise as built, except first-data; the query object changes only in its running list |
| Transaction.ClearQueries | MySQLOO/source/Transaction.cpp:37-47 | the queue becomes empty |
| Transaction.BuildQueryData | MySQLOO/source/Transaction.cpp:156-164 | the new batch holds the queue in the same order, is not retried, has fresh run fields, and the queue is left empty |
| Transaction.SuccessiveRunsDoNotOverlap | MySQLOO/source/Transaction.cpp:156-164 | a build empties the queue, so a second build holds exactly what was added after the first; a consequence of `BuildQueryData`'s contract |
| Transaction.StartTransaction | MySQLOO/source/IQuery.cpp:42-57 | a transaction's start fails exactly on a disconnected database; otherwise its batch is the queue it had with fresh run fields and the object's four callback references, the queue is emptied, the batch is registered, first-data exactly on the first start; the object is marked started and otherwise unchanged; the events are the Lua reference (only when nothing was running) and the enqueue |
| Transaction.ClearedQueriesStayRegistered | MySQLOO/source/Transaction.cpp:32-45 | clearing the queue does not unregister a cleared query's run from its query object |
| Transaction.ClearThenStartIsEmpty | MySQLOO/source/Transaction.cpp:37-47 | clearing and then starting runs an empty batch; a consequence of the `ClearQueries` and `StartTransaction` contracts |
| Transaction.DoCallback | MySQLOO/source/Transaction.cpp:50-71 | the batch becomes COMPLETE; NONE fires nothing; ERROR fires the error reference with the error text, else `onError` for first-data; SUCCESS fires the success reference, else `onSuccess` for first-data; never more than one |
| TransactionRun.Executed | MySQLOO/source/Transaction.cpp:90-99 | a statement that ran ends finished, SUCCESS with empty error or ERROR with the exception's text, other fields unchanged |
| TransactionRun.RunStatements | MySQLOO/source/Transaction.cpp:86-102 | the loop runs statements in order, stops at the first failure (which is its error), runs all of them exactly when none fails, and changes only the statements it ran |
| TransactionRun.RunAttempt | MySQLOO/source/Transaction.cpp:83-107 | an attempt keeps the batch's pairs and ends without error exactly when autocommit-off and every statement succeeded and the commit succeeded |
| TransactionRun.AttemptOutcome | MySQLOO/source/Transaction.cpp:83-107 | an attempt's calls are autocommit-off, the executed statements in order, and the commit exactly when everything before it succeeded; its error is the failed autocommit-off, the first failing statement, or "commit failed"; unexecuted pairs are untouched |
| TransactionRun.ClearFinished | MySQLOO/source/Transaction.cpp:120-122 | every pair is marked unfinished and nothing else changes |
| TransactionRun.PrepareRetry | MySQLOO/source/Transaction.cpp:120-123 | before the retry every pair is unfinished and the batch is marked retried |
| TransactionRun.PushEvents | MySQLOO/source/Transaction.cpp:133-144 | the push loop pushes each pair and wakes its query right after, and every wake-up directly follows its own push; the pushed indices are exactly the finished pairs, in strictly increasing order |
| TransactionRun.Finish | MySQLOO/source/Transaction.cpp:133-152 | a run that does not retry keeps its earlier calls, then pushes exactly the finished pairs in increasing order, then turns autocommit on and restores the reconnect flag last; the batch is marked COMPLETE with nothing else changed, and true is returned |
| TransactionRun.Execute | MySQLOO/source/Transaction.cpp:73-153 | every run returns true with the batch COMPLETE, the same number of pairs, the same queries in the same order; the batch's own record changes only in its status, result status and error text, so its identity, callback references, first-data and finished flags are kept on every path, the retry included |
| RunProperties.AttemptEventsAreWork | MySQLOO/source/Transaction.cpp:83-107 | an attempt only switches autocommit off, executes and commits |
| RunProperties.ExecuteRetries | MySQLOO/source/Transaction.cpp:112-125 | when a retry is taken, the outer call's batch is the retried call's batch, and its trace is the attempt, SetReconnect(true), Ping, the retried call's trace and the guard's restore |
| RunProperties.ExecuteSettlesTrace | MySQLOO/source/Transaction.cpp:80-153 | without a retry, the trace is: reconnect off, the attempt, the rollback (after the ping when one was tried) only on error, the pushes, autocommit on, the restore |
| RunProperties.ExecuteSettlesBatch | MySQLOO/source/Transaction.cpp:107-110 | without a retry, the batch's pairs are the attempt's, the result is SUCCESS exactly when the attempt had no error; an error's text is the exception's, and on success the batch keeps the error text it had |
| RunProperties.ReconnectFlagRestored | MySQLOO/source/Transaction.cpp:80-82 | on every path (success, error, retry, failed ping) the auto-reconnect flag after the run equals its value before, and it is off during every switch to manual commit, statement and commit |
| RunProperties.RetryAtMostOnce | MySQLOO/source/Transaction.cpp:113-125 | a retry happens exactly when reconnect was on, the batch was not retried, the error is a lost connection and the ping succeeds; autocommit-off occurs twice then and once otherwise; there is at most one ping, none for an already retried batch |
| RunProperties.RollbackExactlyOnError | MySQLOO/source/Transaction.cpp:108-131 | the run rolls back exactly when its result is ERROR, at most once; the result is never NONE; it is SUCCESS exactly when the last attempt reached and passed the commit |
| RunProperties.RetrySuccessKeepsFirstError | MySQLOO/source/Transaction.cpp:107-124 | a retry that succeeds ends SUCCESS, but the batch's error text is still the lost connection's, since the success path does not clear it |
| RunProperties.CommitFailureNeverRetried | MySQLOO/source/Transaction.cpp:104-106 | a failed commit is never retried: the run commits, rolls back, and ends ERROR with "commit failed" |
| RunProperties.PushOrderEqualsBatchOrder | MySQLOO/source/Transaction.cpp:124-144 | over a whole run, including a retried one, pushes happen at strictly increasing batch indices, and an index is pushed exactly when its final pair is finished |
| RunProperties.CommitModeRestoredLast | MySQLOO/source/Transaction.cpp:146-149 | autocommit is turned back on exactly once per run, after every push, and only the reconnect restores follow it |
| RunProperties.AttemptFinishedPrefix | MySQLOO/source/Transaction.cpp:86-107 | starting from unfinished pairs, the finished pairs of an attempt form a prefix, all SUCCESS except possibly the last; without error all pairs finish SUCCESS; unfinished pairs are untouched |
| RunProperties.FinishedUnitsFormAPrefix | MySQLOO/source/Transaction.cpp:86-144 | after a run over unfinished pairs, the finished pairs form a prefix, all but the last SUCCESS; a successful run finished every pair with SUCCESS; without a retry the unfinished pairs are exactly as they were given |

## Left out

- The Lua binding layer: unpacking `self` and arguments, registering functions, `ThrowError`, referencing tables and running functions. Calls into Lua are returned as `Host.HostEvent`s; a thrown Lua error is a `Failure`.
- `IQuery::wait`: it blocks on a condition variable and reorders the database's queue, which is not part of this model. The wake-up at Transaction.cpp:142 appears only as a `Notify` event.
- Threads, mutexes and atomics: the run is modelled sequentially.
- The client library (`mysql_autocommit`, `mysql_real_query`, `mysql_commit`, `mysql_ping`, `mysql_rollback`, `mysql_store_result`, `mysql_next_result`): each call is an outcome given by the scripted connection or a parameter.
  - The codes `CR_UNKNOWN_ERROR`, `CR_SERVER_GONE_ERROR` and `CR_SERVER_LOST` come from errmsg.h, which is not part of this model. They take the client library's values 2000, 2006 and 2013.
- `Query::executeQuery`, `Query::buildQueryData`, `Database::enqueueQuery`, `finishedQueries.put` and `queryQueue.removeIf` are not part of this model:
  - a statement's execution is a scripted outcome;
  - a query's own run is a parameter;
  - queueing is an `Enqueue` event;
  - pushing is a `Push` event;
  - the database queue is a sequence of run identities.
- Shared ownership: the batch and the query objects share their `IQueryData` through `shared_ptr`. The model copies records and keeps identity in `id`, so the run's updates to a statement are not written back into the query object's running list.
- Exceptions other than `MySQLException` thrown during a run (such as `std::bad_alloc`) are not modelled.
- The unused second `buildQueryData` call at Transaction.cpp:31 and the leak noted at Transaction.cpp:13 are memory management with no effect on state the model keeps.
- The return value of the final `mysql_autocommit(connection, true)` is ignored by the source, so the model records only the call.
- `IQuery.OnQueryDataFinished`: `erase(remove(...))` erases a single position; the model removes every entry with the run's identity. The two differ only when one run is registered twice, which registration never does.
- `IQuery.TruncateToInt`: the `(int)` conversion of a Lua number outside the `int` range is undefined in C++; the model truncates any number and does not model that range.
- `IQuery.NewIQuery`: the option word is modelled as the set of options it holds. Only the four option bits are ever set, and `QueryData.WordHoldsExactlyItsOptions` ties the set to the word.
- `TransactionRun.RunAttempt`: its own contract is the coarse outcome; what an attempt does in detail is stated by the lemma `TransactionRun.AttemptOutcome`.
- `TransactionRun.Execute`: its own contract states only what every run keeps; the retry, rollback, push and flag properties are the `RunProperties` lemmas about it.
- Nothing beyond the code happens to the statements after a failing one: the loop at Transaction.cpp:86-102 never reaches them. In a run without a retry they keep the fields they had and stay unfinished. After a retry, a statement the retry does not reach keeps what the first attempt left, for instance ERROR and that attempt's text, but is unfinished, since Transaction.cpp:120-122 clears only `finished`. Either way it is never pushed.
- `Transaction.AddQuery`: the code does not check whether the query is already part of another live batch, so the model does not either.

=== FILE: client_api.dfy ===
/**
 * The wrappers around the client library's C calls that turn a failure
 * return into a `MySQLException` (MySQLOO/source/IQuery.cpp), and the client
 * error codes the transaction run looks at.
 */
module ClientApi {
  import opened Wrappers
  import opened QueryData

  // Client error codes from the MySQL client library's errmsg.h.
  const CrUnknownError: int := 2000
  const CrServerGoneError: int := 2006
  const CrServerLost: int := 2013

  /** The error classes after which a transaction may be retried once. */
  predicate IsConnectionLost(code: int)
  {
    code == CrServerLost || code == CrServerGoneError
  }

  /** The exception raised when `mysql_commit` reports failure. */
  const CommitFailed: MySQLException := MySQLException(CrUnknownError, "commit failed")

  /** A failed commit is never in the retry class. */
  lemma CommitFailureIsNotConnectionLost()
    ensures !IsConnectionLost(CommitFailed.GetErrorCode())
    ensures CrUnknownError != CrServerLost && CrUnknownError != CrServerGoneError && CrServerLost != CrServerGoneError
  {
  }

  /**
   * `mysqlNextResult`: 0 means another result follows, -1 means none does;
   * any other return is an error exactly when the client's errno is set.
   */
  function MysqlNextResult(result: int, errno: int, errorMessage: string): (r: Result<bool, MySQLException>)
    ensures r.Success? && r.value <==> result == 0
    ensures r.Failure? <==> result != 0 && result != -1 && errno != 0
    ensures r.Failure? ==> r.error.GetErrorCode() == errno && r.error.What() == errorMessage
  {
    if result == 0 then Success(true)
    else if result == -1 then Success(false)
    else if errno != 0 then Failure(MySQLException(errno, errorMessage))
    else Success(false)
  }

  /**
   * `mysqlQuery` and `mysqlAutocommit`: a non-zero return raises the
   * client's errno and message; zero returns normally.
   */
  function CheckedCall(result: int, errno: int, errorMessage: string): (r: Result<(), MySQLException>)
    ensures r.Success? <==> result == 0
    ensures r.Failure? ==> r.error == MySQLException(errno, errorMessage)
  {
    if result != 0 then Failure(MySQLException(errno, errorMessage)) else Success(())
  }

  /**
   * `mysqlStoreResults`: a missing result set (`None`) is an error only when
   * the client's errno is set; otherwise the (possibly missing) set is returned.
   */
  function MysqlStoreResults<R>(stored: Option<R>, errno: int, errorMessage: string): (r: Result<Option<R>, MySQLException>)
    ensures r.Failure? <==> stored.None? && errno != 0
    ensures r.Success? ==> r.value == stored
    ensures r.Failure? ==> r.error == MySQLException(errno, errorMessage)
  {
    if stored.None? && errno != 0 then Failure(MySQLException(errno, errorMessage)) else Success(stored)
  }
}

=== FILE: host.dfy ===
/**
 * What the modelled code asks of the scripting host, recorded as events:
 * calling a referenced function or a named callback, holding and releasing
 * references, and handing a run to the database's queue.
 */
module Host {
  import opened Wrappers

  datatype HostEvent =
    | RunFunction(reference: int, argument: Option<string>)   // call a referenced callback
    | RunCallback(name: string, argument: Option<string>)     // call a named method of the object
    | ReferenceTable                                          // keep the host object alive
    | Unreference                                             // let the host object go
    | ReferenceFree(reference: int)                           // release one callback reference
    | Enqueue(dataId: nat)                                    // put a run on the database queue

  /** The callback references read from the host object when a run is registered. */
  datatype CallbackRefs = CallbackRefs(onData: int, onError: int, onAborted: int, onSuccess: int)

  /**
   * The callback choice shared by completion and abort: the referenced
   * function when the reference is set, else the named callback but only
   * for the first-data run, else nothing.
   */
  function SelectCallback(reference: int, firstData: bool, name: string, argument: Option<string>): (r: seq<HostEvent>)
    ensures |r| <= 1
    ensures |r| == 1 <==> reference != 0 || firstData
    ensures reference != 0 ==> r == [RunFunction(reference, argument)]
    ensures reference == 0 && firstData ==> r == [RunCallback(name, argument)]
  {
    if reference != 0 then [RunFunction(reference, argument)]
    else if firstData then [RunCallback(name, argument)]
    else []
  }
}

=== FILE: iquery.dfy ===
/**
 * The query object shared by plain queries and transactions
 * (MySQLOO/source/IQuery.cpp): its option word, the list of runs that are
 * registered but not yet finished, start, abort and the run bookkeeping.
 */
module IQuery {
  import opened Wrappers
  import opened QueryData
  import opened Host

  /** The fields of an `IQuery` object this model needs. */
  datatype IQueryState = IQueryState(
    options: set<QueryOption>,
    running: seq<IQueryData>,
    callbackData: Option<IQueryData>,
    hasBeenStarted: bool,
    canBeDestroyed: bool)

  /** A new query object: named fields, interpreted data and caching are on. */
  function NewIQuery(): (q: IQueryState)
    ensures NumericFields !in q.options && NamedFields in q.options && InterpretData in q.options && Cache in q.options
    ensures Word(q.options) == 14
    ensures q.running == [] && q.callbackData.None? && !q.hasBeenStarted && !q.canBeDestroyed
  {
    IQueryState({NamedFields, InterpretData, Cache}, [], None, false, false)
  }

  // ---------------------------------------------------------------------
  // setOption

  /** A value on the host's argument stack. Numbers are doubles. */
  datatype LuaValue = LuaNil | LuaNumber(n: real) | LuaBool(b: bool) | LuaOther

  /** Why `setOption` refused its arguments. */
  datatype OptionError = ArgumentTypeError(position: nat) | InvalidOption

  /** C's conversion of a double to `int`: truncation toward zero. */
  function TruncateToInt(x: real): (r: int)
    ensures -1.0 < x - r as real < 1.0
    ensures x >= 0.0 ==> 0 <= r && r as real <= x
    ensures x < 0.0 ==> r <= 0 && x <= r as real
  {
    if x >= 0.0 then x.Floor else -((-x).Floor)
  }

  /** The option an integer names, if it is one of the four `OPTION_*` values. */
  function OptionBit(option: int): (r: Option<QueryOption>)
    ensures r.Some? ==> r.value.Bit() == option
    ensures r.None? ==> forall o: QueryOption :: o.Bit() != option
  {
    if option == 1 then Some(NumericFields)
    else if option == 2 then Some(NamedFields)
    else if option == 4 then Some(InterpretData)
    else if option == 8 then Some(Cache)
    else None
  }

  /** Whether `setOption(args)` is accepted: a number naming an option, then optionally a boolean. */
  predicate ValidOptionArgs(args: seq<LuaValue>)
  {
    && |args| >= 1 && args[0].LuaNumber? && OptionBit(TruncateToInt(args[0].n)).Some?
    && (|args| >= 2 ==> args[1].LuaBool?)
  }

  /**
   * The options after `m_options |= o` (`on`) or `m_options &= ~o`: option
   * `o` is on exactly when requested, every other option keeps its state.
   */
  function ApplyOption(options: set<QueryOption>, o: QueryOption, on: bool): (r: set<QueryOption>)
    ensures o in r <==> on
    ensures forall p :: p != o ==> (p in r <==> p in options)
  {
    if on then options + {o} else options - {o}
  }

  /** On the option word, `ApplyOption` sets or clears `o`'s bit and keeps every other bit. */
  lemma ApplyOptionIsBitUpdate(options: set<QueryOption>, o: QueryOption, on: bool)
    ensures HasBit(Word(ApplyOption(options, o, on)), o) == on
    ensures forall p: QueryOption :: p != o ==> HasBit(Word(ApplyOption(options, o, on)), p) == HasBit(Word(options), p)
  {
    var r := ApplyOption(options, o, on);
    WordHoldsExactlyItsOptions(r, o);
    forall p: QueryOption | p != o ensures HasBit(Word(r), p) == HasBit(Word(options), p) {
      WordHoldsExactlyItsOptions(r, p);
      WordHoldsExactlyItsOptions(options, p);
    }
  }

  /** Applying the same option change twice is applying it once. */
  lemma ApplyOptionIdempotent(options: set<QueryOption>, o: QueryOption, on: bool)
    ensures ApplyOption(ApplyOption(options, o, on), o, on) == ApplyOption(options, o, on)
  {
  }

  /**
   * `setOption(option [, set])`, `args` being the arguments after the
   * object itself. On success the named bit is set (or cleared when the
   * second argument is false) and every other bit keeps its value.
   */
  function SetOption(q: IQueryState, args: seq<LuaValue>): (r: Result<IQueryState, OptionError>)
    ensures r.Success? <==> ValidOptionArgs(args)
    ensures r.Success? ==> r.value.(options := q.options) == q
    ensures r.Success? ==>
              var o := OptionBit(TruncateToInt(args[0].n)).value;
              var on := |args| < 2 || args[1].b;
              r.value.options == ApplyOption(q.options, o, on)
    ensures r == Failure(ArgumentTypeError(2)) <==> |args| < 1 || !args[0].LuaNumber?
    ensures r == Failure(InvalidOption) <==>
              |args| >= 1 && args[0].LuaNumber? && OptionBit(TruncateToInt(args[0].n)).None?
    ensures r == Failure(ArgumentTypeError(3)) <==>
              && |args| >= 2 && args[0].LuaNumber? && OptionBit(TruncateToInt(args[0].n)).Some?
              && !args[1].LuaBool?
  {
    if |args| < 1 || !args[0].LuaNumber? then Failure(ArgumentTypeError(2))
    else
      var option := TruncateToInt(args[0].n);
      match OptionBit(option)
      case None => Failure(InvalidOption)
      case Some(o) =>
        if |args| >= 2 && !args[1].LuaBool? then Failure(ArgumentTypeError(3))
        else
          var on := if |args| >= 2 then args[1].b else true;
          Success(q.(options := ApplyOption(q.options, o, on)))
  }

  /** Repeating a `setOption` call changes nothing further. */
  lemma SetOptionIdempotent(q: IQueryState, args: seq<LuaValue>)
    requires ValidOptionArgs(args)
    ensures SetOption(SetOption(q, args).value, args) == SetOption(q, args)
  {
    var o := OptionBit(TruncateToInt(args[0].n)).value;
    ApplyOptionIdempotent(q.options, o, |args| < 2 || args[1].b);
  }

  // ---------------------------------------------------------------------
  // The list of running data

  /** Whether a record with this identity is registered. */
  predicate HasData(running: seq<IQueryData>, id: nat)
  {
    exists i :: 0 <= i < |running| && running[i].id == id
  }

  /** The identities of a list of records. */
  function IdsOf(s: seq<IQueryData>): (ids: set<nat>)
    ensures forall i :: 0 <= i < |s| ==> s[i].id in ids
    ensures forall id :: id in ids ==> HasData(s, id)
  {
    set i | 0 <= i < |s| :: s[i].id
  }

  lemma IdsOfCons(s: seq<IQueryData>)
    requires s != []
    ensures IdsOf(s) == {s[0].id} + IdsOf(s[1..])
  {
    forall x | x in IdsOf(s) ensures x in {s[0].id} + IdsOf(s[1..]) {
      var i :| 0 <= i < |s| && s[i].id == x;
      if i > 0 { assert s[1..][i - 1].id == x; }
    }
  }

  lemma IdsOfAppend(a: seq<IQueryData>, b: seq<IQueryData>)
    ensures IdsOf(a + b) == IdsOf(a) + IdsOf(b)
  {
    forall x | x in IdsOf(a + b) ensures x in IdsOf(a) + IdsOf(b) {
      var i :| 0 <= i < |a + b| && (a + b)[i].id == x;
      if i >= |a| { assert (a + b)[i] == b[i - |a|]; }
    }
    forall x | x in IdsOf(a) ensures x in IdsOf(a + b) {
      var i :| 0 <= i < |a| && a[i].id == x;
      assert (a + b)[i] == a[i];
    }
    forall x | x in IdsOf(b) ensures x in IdsOf(a + b) {
      var i :| 0 <= i < |b| && b[i].id == x;
      assert (a + b)[i + |a|] == b[i];
    }
  }

  /** `s` without the records whose identity is in `ids`, order kept. */
  function RemoveIds(s: seq<IQueryData>, ids: set<nat>): (r: seq<IQueryData>)
    ensures |r| <= |s|
    ensures forall x :: x in r <==> x in s && x.id !in ids
  {
    if s == [] then [] else (if s[0].id in ids then [] else [s[0]]) + RemoveIds(s[1..], ids)
  }

  /**
   * Removal works entry by entry, order kept: removing from a concatenation
   * is concatenating the removals (a single record stays exactly when its
   * identity is not removed: `RemoveIdsSingle`).
   */
  lemma {:induction false} RemoveIdsAppend(a: seq<IQueryData>, b: seq<IQueryData>, ids: set<nat>)
    ensures RemoveIds(a + b, ids) == RemoveIds(a, ids) + RemoveIds(b, ids)
  {
    if a == [] {
      assert a + b == b;
    } else {
      var head := if a[0].id in ids then [] else [a[0]];
      assert (a + b)[0] == a[0];
      assert (a + b)[1..] == a[1..] + b;
      calc {
        RemoveIds(a + b, ids);
        head + RemoveIds(a[1..] + b, ids);
        { RemoveIdsAppend(a[1..], b, ids); }
        head + (RemoveIds(a[1..], ids) + RemoveIds(b, ids));
        (head + RemoveIds(a[1..], ids)) + RemoveIds(b, ids);
      }
    }
  }

  lemma RemoveIdsSingle(d: IQueryData, ids: set<nat>)
    ensures RemoveIds([d], ids) == (if d.id in ids then [] else [d])
  {
    assert [d][1..] == [];
  }


  /** Removing two sets of identities one after the other removes their union. */
  lemma {:induction false} RemoveIdsTwice(s: seq<IQueryData>, a: set<nat>, b: set<nat>)
    ensures RemoveIds(RemoveIds(s, a), b) == RemoveIds(s, a + b)
  {
    if s != [] {
      RemoveIdsTwice(s[1..], a, b);
      var inner := RemoveIds(s[1..], a);
      if s[0].id in a {
        assert RemoveIds(s, a) == inner;
        assert RemoveIds(s, a + b) == RemoveIds(s[1..], a + b);
      } else {
        assert RemoveIds(s, a) == [s[0]] + inner;
        assert ([s[0]] + inner)[1..] == inner;
        assert RemoveIds([s[0]] + inner, b) == (if s[0].id in b then [] else [s[0]]) + RemoveIds(inner, b);
      }
    }
  }

  /** Removal only depends on which of the list's own identities are removed. */
  lemma {:induction false} RemoveIdsExtensional(s: seq<IQueryData>, a: set<nat>, b: set<nat>)
    requires forall i :: 0 <= i < |s| ==> (s[i].id in a <==> s[i].id in b)
    ensures RemoveIds(s, a) == RemoveIds(s, b)
  {
    if s != [] {
      RemoveIdsExtensional(s[1..], a, b);
    }
  }

  /** `addQueryData`: what registering a run produces. */
  datatype Added = Added(query: IQueryState, data: IQueryData)

  /**
   * Registers `data` as running: it goes to the back of the list, becomes
   * first-data when the object has never been started, and takes the
   * object's current callback references.
   */
  function AddQueryData(q: IQueryState, data: IQueryData, refs: CallbackRefs): (r: Added)
    ensures r.query.running == q.running + [r.data]
    ensures r.data.id == data.id && HasData(r.query.running, data.id)
    ensures r.query.(running := q.running) == q
    ensures r.data.IsFirstData() == (!q.hasBeenStarted || data.IsFirstData())
    ensures r.data.GetOnDataReference() == refs.onData && r.data.GetErrorReference() == refs.onError
    ensures r.data.GetAbortReference() == refs.onAborted && r.data.GetSuccessReference() == refs.onSuccess
    ensures r.data.(wasFirstData := data.wasFirstData, onDataReference := data.onDataReference,
                    errorReference := data.errorReference, abortReference := data.abortReference,
                    successReference := data.successReference) == data
  {
    var marked := if !q.hasBeenStarted then data.(wasFirstData := true) else data;
    var d := marked.(onDataReference := refs.onData, errorReference := refs.onError,
                     abortReference := refs.onAborted, successReference := refs.onSuccess);
    assert (q.running + [d])[|q.running|] == d;
    Added(q.(running := q.running + [d]), d)
  }

  /** `start`: what a successful start produces. */
  datatype Started = Started(query: IQueryState, data: IQueryData, events: seq<HostEvent>)

  /**
   * `start`, given the run `built` by the object's `buildQueryData`: fails
   * on a disconnected database; otherwise holds the host object if nothing
   * was running, registers the run, queues it and marks the object started.
   */
  function Start(q: IQueryState, built: IQueryData, refs: CallbackRefs, disconnected: bool): (r: Result<Started, string>)
    ensures r.Failure? <==> disconnected
    ensures r.Failure? ==> r.error == "Database already disconnected."
    ensures r.Success? ==>
              && r.value.query.hasBeenStarted
              && r.value.query.running == q.running + [r.value.data]
              && r.value.data.id == built.id
              && r.value.data.IsFirstData() == (!q.hasBeenStarted || built.IsFirstData())
              && r.value.events == (if q.running == [] then [ReferenceTable] else []) + [Enqueue(built.id)]
    ensures r.Success? ==> r.value.query.(running := q.running, hasBeenStarted := q.hasBeenStarted) == q
    ensures r.Success? ==>
              && r.value.data.GetOnDataReference() == refs.onData && r.value.data.GetErrorReference() == refs.onError
              && r.value.data.GetAbortReference() == refs.onAborted && r.value.data.GetSuccessReference() == refs.onSuccess
              && r.value.data.(wasFirstData := built.wasFirstData, onDataReference := built.onDataReference,
                               errorReference := built.errorReference, abortReference := built.abortReference,
                               successReference := built.successReference) == built
  {
    if disconnected then Failure("Database already disconnected.")
    else
      var hold := if |q.running| == 0 then [ReferenceTable] else [];
      var added := AddQueryData(q, built, refs);
      Success(Started(added.query.(hasBeenStarted := true), added.data, hold + [Enqueue(built.id)]))
  }

  /** Only the run registered by the first start is first-data. */
  lemma OnlyFirstStartIsFirstData(q: IQueryState, d1: IQueryData, d2: IQueryData, refs: CallbackRefs)
    requires !q.hasBeenStarted && !d1.IsFirstData() && !d2.IsFirstData()
    ensures Start(q, d1, refs, false).Success?
    ensures Start(q, d1, refs, false).value.data.IsFirstData()
    ensures var q1 := Start(q, d1, refs, false).value.query;
            Start(q1, d2, refs, false).Success? && !Start(q1, d2, refs, false).value.data.IsFirstData()
  {
  }

  /** `isRunning`: some registered run has not finished. */
  function IsRunning(q: IQueryState): (r: bool)
    ensures r <==> exists id :: HasData(q.running, id)
  {
    if |q.running| > 0 then
      assert HasData(q.running, q.running[0].id);
      true
    else false
  }

  /** `onQueryDataFinished`: what finishing a run produces. */
  datatype Finished = Finished(query: IQueryState, data: IQueryData, events: seq<HostEvent>)

  /** The four callback references a run holds, in the order they are released. */
  function HeldReferences(d: IQueryData): seq<int>
  {
    [d.onDataReference, d.errorReference, d.abortReference, d.successReference]
  }

  /** The non-zero entries of `refs`, in order. */
  function NonZero(refs: seq<int>): (r: seq<int>)
    ensures |r| <= |refs|
    ensures forall x :: x in r <==> x in refs && x != 0
  {
    if refs == [] then []
    else
      assert forall x :: x in refs <==> x == refs[0] || x in refs[1..];
      (if refs[0] != 0 then [refs[0]] else []) + NonZero(refs[1..])
  }

  /** A release event for each non-zero reference of `refs`, in order. */
  function ReleaseEvents(refs: seq<int>): (r: seq<HostEvent>)
    ensures |r| == |NonZero(refs)|
    ensures forall i :: 0 <= i < |r| ==> r[i] == ReferenceFree(NonZero(refs)[i])
  {
    if refs == [] then []
    else
      var head := if refs[0] != 0 then [ReferenceFree(refs[0])] else [];
      var rest := ReleaseEvents(refs[1..]);
      var nz := NonZero(refs);
      assert nz == (if refs[0] != 0 then [refs[0]] else []) + NonZero(refs[1..]);
      assert forall i :: |head| <= i < |nz| ==> nz[i] == NonZero(refs[1..])[i - |head|];
      head + rest
  }

  /**
   * Release events for the callback references a run holds: one for each
   * non-zero reference, in the order onData, error, abort, success.
   */
  function FreeReferences(d: IQueryData): (r: seq<HostEvent>)
    ensures |r| == |NonZero(HeldReferences(d))|
    ensures forall i :: 0 <= i < |r| ==> r[i] == ReferenceFree(NonZero(HeldReferences(d))[i])
    ensures forall e :: e in r ==> e.ReferenceFree? && e.reference != 0 && e.reference in HeldReferences(d)
    ensures forall ref :: ref != 0 && ref in HeldReferences(d) ==> ReferenceFree(ref) in r
  {
    ReleasesCoverNonZero(HeldReferences(d));
    ReleaseEvents(HeldReferences(d))
  }

  /** The release events of `refs` release exactly its non-zero references. */
  lemma ReleasesCoverNonZero(refs: seq<int>)
    ensures forall e :: e in ReleaseEvents(refs) ==> e.ReferenceFree? && e.reference != 0 && e.reference in refs
    ensures forall ref :: ref != 0 && ref in refs ==> ReferenceFree(ref) in ReleaseEvents(refs)
  {
    var r := ReleaseEvents(refs);
    var nz := NonZero(refs);
    forall e | e in r ensures e.ReferenceFree? && e.reference != 0 && e.reference in refs {
      var i :| 0 <= i < |r| && r[i] == e;
      assert nz[i] in nz;
    }
    forall ref | ref != 0 && ref in refs ensures ReferenceFree(ref) in r {
      assert ref in nz;
      var i :| 0 <= i < |nz| && nz[i] == ref;
      assert r[i] == ReferenceFree(ref);
    }
  }

  /** A run with its four callback references released to 0, nothing else changed. */
  function Released(d: IQueryData): (r: IQueryData)
    ensures r.HoldsNoReferences()
    ensures r.(onDataReference := d.onDataReference, errorReference := d.errorReference,
               abortReference := d.abortReference, successReference := d.successReference) == d
  {
    d.(onDataReference := 0, errorReference := 0, abortReference := 0, successReference := 0)
  }

  /**
   * `onQueryDataFinished`: the run must be registered (erasing at the end
   * iterator is undefined). It is removed from the list; once the list is
   * empty the object is let go and may be destroyed; then every reference
   * the run holds is released and all four are zeroed.
   */
  function OnQueryDataFinished(q: IQueryState, data: IQueryData): (r: Finished)
    requires HasData(q.running, data.id)
    ensures r.query.running == RemoveIds(q.running, {data.id})
    ensures |r.query.running| < |q.running|
    ensures !HasData(r.query.running, data.id)
    ensures r.query.canBeDestroyed == (q.canBeDestroyed || r.query.running == [])
    ensures r.query.(running := q.running, canBeDestroyed := q.canBeDestroyed) == q
    ensures r.data == Released(data)
    ensures r.data.HoldsNoReferences()
    ensures r.data.(onDataReference := data.onDataReference, errorReference := data.errorReference,
                    abortReference := data.abortReference, successReference := data.successReference) == data
    ensures r.events == (if r.query.running == [] then [Unreference] else []) + FreeReferences(data)
    ensures (Unreference in r.events) <==> r.query.running == []
    ensures forall e :: e in r.events ==> e.Unreference? || e.ReferenceFree?
  {
    var rest := RemoveIds(q.running, {data.id});
    var i :| 0 <= i < |q.running| && q.running[i].id == data.id;
    assert q.running[i] !in rest;
    assert |rest| < |q.running| by { RemoveIdsShorter(q.running, {data.id}, i); }
    var release := if |rest| == 0 then [Unreference] else [];
    var query := q.(running := rest, canBeDestroyed := if |rest| == 0 then true else q.canBeDestroyed);
    Finished(query, Released(data), release + FreeReferences(data))
  }

  /** Removing an identity that occurs in the list shortens it. */
  lemma {:induction false} RemoveIdsShorter(s: seq<IQueryData>, ids: set<nat>, i: nat)
    requires i < |s| && s[i].id in ids
    ensures |RemoveIds(s, ids)| < |s|
  {
    if i > 0 {
      RemoveIdsShorter(s[1..], ids, i - 1);
    } else {
      assert |RemoveIds(s[1..], ids)| <= |s[1..]|;
    }
  }

  /** A run registered by `AddQueryData` keeps the object running until it is the last one finished. */
  lemma RunningTracksRegisteredData(q: IQueryState, data: IQueryData, refs: CallbackRefs)
    ensures IsRunning(AddQueryData(q, data, refs).query)
    ensures var added := AddQueryData(q, data, refs);
            var fin := OnQueryDataFinished(added.query, added.data);
            IsRunning(fin.query) <==> exists i :: 0 <= i < |q.running| && q.running[i].id != data.id
  {
    var added := AddQueryData(q, data, refs);
    assert added.query.running[|q.running|] == added.data;
    var fin := OnQueryDataFinished(added.query, added.data);
    if exists i :: 0 <= i < |q.running| && q.running[i].id != data.id {
      var i :| 0 <= i < |q.running| && q.running[i].id != data.id;
      assert added.query.running[i] == q.running[i];
      assert q.running[i] in fin.query.running;
    } else {
      assert forall i :: 0 <= i < |added.query.running| ==> added.query.running[i].id == data.id;
      RemoveIdsAll(added.query.running, data.id);
    }
  }

  /** Removing the only identity a list holds empties it. */
  lemma {:induction false} RemoveIdsAll(s: seq<IQueryData>, id: nat)
    requires forall i :: 0 <= i < |s| ==> s[i].id == id
    ensures RemoveIds(s, {id}) == []
  {
    if s != [] {
      RemoveIdsAll(s[1..], id);
    }
  }

  // ---------------------------------------------------------------------
  // abort

  /** `abort`: what trying to abort the object's queued runs produces. */
  datatype AbortRun = AbortRun(query: IQueryState, queue: seq<nat>, aborted: seq<IQueryData>, events: seq<HostEvent>, wasAborted: bool)

  /** `queue` without the entries whose identity is in `ids`, order kept. */
  function DropIds(queue: seq<nat>, ids: set<nat>): (r: seq<nat>)
    ensures |r| <= |queue|
    ensures forall x :: x in r <==> x in queue && x !in ids
  {
    if queue == [] then [] else (if queue[0] in ids then [] else [queue[0]]) + DropIds(queue[1..], ids)
  }

  /**
   * Dropping works entry by entry, order kept: dropping from a concatenation
   * is concatenating the drops (a single entry stays exactly when it is not
   * dropped: `DropIdsSingle`).
   */
  lemma {:induction false} DropIdsAppend(a: seq<nat>, b: seq<nat>, ids: set<nat>)
    ensures DropIds(a + b, ids) == DropIds(a, ids) + DropIds(b, ids)
  {
    if a == [] {
      assert a + b == b;
    } else {
      var head := if a[0] in ids then [] else [a[0]];
      assert (a + b)[0] == a[0];
      assert (a + b)[1..] == a[1..] + b;
      calc {
        DropIds(a + b, ids);
        head + DropIds(a[1..] + b, ids);
        { DropIdsAppend(a[1..], b, ids); }
        head + (DropIds(a[1..], ids) + DropIds(b, ids));
        (head + DropIds(a[1..], ids)) + DropIds(b, ids);
      }
    }
  }

  lemma DropIdsSingle(x: nat, ids: set<nat>)
    ensures DropIds([x], ids) == (if x in ids then [] else [x])
  {
    assert [x][1..] == [];
  }


  /** Dropping two sets of identities one after the other drops their union. */
  lemma {:induction false} DropIdsTwice(queue: seq<nat>, a: set<nat>, b: set<nat>)
    ensures DropIds(DropIds(queue, a), b) == DropIds(queue, a + b)
  {
    if queue != [] {
      DropIdsTwice(queue[1..], a, b);
      var inner := DropIds(queue[1..], a);
      if queue[0] in a {
        assert DropIds(queue, a) == inner;
        assert DropIds(queue, a + b) == DropIds(queue[1..], a + b);
      } else {
        assert DropIds(queue, a) == [queue[0]] + inner;
        assert ([queue[0]] + inner)[1..] == inner;
        assert DropIds([queue[0]] + inner, b) == (if queue[0] in b then [] else [queue[0]]) + DropIds(inner, b);
      }
    }
  }

  /** Dropping identities that are not in the queue leaves it as it is. */
  lemma {:induction false} DropAbsentIds(queue: seq<nat>, ids: set<nat>)
    requires forall i :: 0 <= i < |queue| ==> queue[i] !in ids
    ensures DropIds(queue, ids) == queue
  {
    if queue != [] {
      DropAbsentIds(queue[1..], ids);
    }
  }

  /** The callback invocations among host events, in order. */
  function Callbacks(events: seq<HostEvent>): (r: seq<HostEvent>)
    ensures |r| <= |events|
    ensures forall e :: e in r <==> e in events && (e.RunFunction? || e.RunCallback?)
  {
    if events == [] then []
    else
      assert forall e :: e in events <==> e == events[0] || e in events[1..];
      (if events[0].RunFunction? || events[0].RunCallback? then [events[0]] else []) + Callbacks(events[1..])
  }

  lemma {:induction false} CallbacksAppend(a: seq<HostEvent>, b: seq<HostEvent>)
    ensures Callbacks(a + b) == Callbacks(a) + Callbacks(b)
  {
    if a != [] {
      assert (a + b)[0] == a[0];
      assert (a + b)[1..] == a[1..] + b;
      CallbacksAppend(a[1..], b);
    } else {
      assert a + b == b;
    }
  }

  /** Events that only release references carry no callback. */
  lemma NoCallbacksInReleases(events: seq<HostEvent>)
    requires forall e :: e in events ==> e.Unreference? || e.ReferenceFree?
    ensures Callbacks(events) == []
  {
  }

  /** The callback aborting run `d` fires: its abort reference, else `onAborted` for first-data, else none. */
  function AbortCallback(d: IQueryData): (r: seq<HostEvent>)
    ensures |r| <= 1 && Callbacks(r) == r
    ensures |r| == 1 <==> d.GetAbortReference() != 0 || d.IsFirstData()
    ensures d.GetAbortReference() != 0 ==> r == [RunFunction(d.GetAbortReference(), None)]
    ensures d.GetAbortReference() == 0 && d.IsFirstData() ==> r == [RunCallback("onAborted", None)]
  {
    var r := SelectCallback(d.abortReference, d.wasFirstData, "onAborted", None);
    assert r != [] ==> r == [r[0]] && Callbacks(r) == [r[0]] + Callbacks(r[1..]);
    r
  }

  /** The callbacks fired when aborting `runs`, in order. */
  function AbortCallbacks(runs: seq<IQueryData>): (r: seq<HostEvent>)
    ensures |r| <= |runs|
    ensures forall e :: e in r <==> exists i :: 0 <= i < |runs| && AbortCallback(runs[i]) == [e]
  {
    if runs == [] then []
    else
      var rest := AbortCallbacks(runs[1..]);
      var r := AbortCallback(runs[0]) + rest;
      forall e | e in r ensures exists i :: 0 <= i < |runs| && AbortCallback(runs[i]) == [e] {
        if e in rest {
          var i :| 0 <= i < |runs[1..]| && AbortCallback(runs[1..][i]) == [e];
          assert runs[i + 1] == runs[1..][i];
        } else {
          assert AbortCallback(runs[0]) == [e];
        }
      }
      forall e | exists i :: 0 <= i < |runs| && AbortCallback(runs[i]) == [e] ensures e in r {
        var i :| 0 <= i < |runs| && AbortCallback(runs[i]) == [e];
        if i > 0 {
          assert runs[1..][i - 1] == runs[i];
        }
      }
      r
  }

  /**
   * The runs among `pending` that the abort loop finds still in the
   * database queue, in order. Each removal takes the identity out of the
   * queue, so a later record with the same identity is not found again.
   */
  function StillQueued(pending: seq<IQueryData>, queue: seq<nat>): (r: seq<IQueryData>)
    ensures |r| <= |pending|
    ensures forall d :: d in r ==> d in pending && d.id in queue
    decreases |pending|
  {
    if pending == [] then []
    else
      var rest := StillQueued(pending[1..], DropIds(queue, {pending[0].id}));
      assert forall d :: d in rest ==> d in pending;
      (if pending[0].id in queue then [pending[0]] else []) + rest
  }

  /** Whether `running[i]` is the first record in the list with its identity. */
  predicate FirstWithId(running: seq<IQueryData>, i: nat)
    requires i < |running|
  {
    forall j :: 0 <= j < i ==> running[j].id != running[i].id
  }

  /** Every queued run that is the first with its identity is found by the abort loop. */
  lemma {:induction false} StillQueuedFindsQueued(pending: seq<IQueryData>, queue: seq<nat>)
    ensures forall i :: 0 <= i < |pending| && pending[i].id in queue && FirstWithId(pending, i) ==> pending[i] in StillQueued(pending, queue)
    decreases |pending|
  {
    if pending != [] {
      var queue' := DropIds(queue, {pending[0].id});
      StillQueuedFindsQueued(pending[1..], queue');
      forall i | 0 <= i < |pending| && pending[i].id in queue && FirstWithId(pending, i)
        ensures pending[i] in StillQueued(pending, queue)
      {
        if i > 0 {
          assert pending[0].id != pending[i].id;
          assert pending[1..][i - 1] == pending[i];
          assert FirstWithId(pending[1..], i - 1) by {
            forall j | 0 <= j < i - 1 ensures pending[1..][j].id != pending[1..][i - 1].id {
              assert pending[1..][j] == pending[j + 1];
            }
          }
        }
      }
    }
  }

  /** The abort loop finds exactly the identities of `pending` that are queued. */
  lemma {:induction false} StillQueuedIds(pending: seq<IQueryData>, queue: seq<nat>)
    ensures IdsOf(StillQueued(pending, queue)) == Hit(pending, queue)
    decreases |pending|
  {
    if pending != [] {
      var id := pending[0].id;
      var queue' := DropIds(queue, {id});
      StillQueuedIds(pending[1..], queue');
      var rest := StillQueued(pending[1..], queue');
      var head := if id in queue then [pending[0]] else [];
      IdsOfCons(pending);
      IdsOfAppend(head, rest);
      assert IdsOf(head) == (if id in queue then {id} else {});
      assert (set x | x in queue') == (set x | x in queue) - {id};
    }
  }

  /** The identities of `pending` that are still queued. */
  function Hit(pending: seq<IQueryData>, queue: seq<nat>): set<nat>
  {
    IdsOf(pending) * (set x | x in queue)
  }

  /** A run as the abort leaves it: ABORTED, its references released. */
  function AbortedState(d: IQueryData): (r: IQueryData)
    ensures r.GetStatus() == QueryAborted && r.HoldsNoReferences() && r.id == d.id
  {
    Released(d.SetStatus(QueryAborted))
  }

  /** `runs` as the abort leaves them, in the same order. */
  function MarkAborted(runs: seq<IQueryData>): (r: seq<IQueryData>)
    ensures |r| == |runs|
    ensures forall i :: 0 <= i < |runs| ==> r[i] == AbortedState(runs[i])
  {
    seq(|runs|, i requires 0 <= i < |runs| => AbortedState(runs[i]))
  }

  lemma MarkAbortedCons(d: IQueryData, s: seq<IQueryData>)
    ensures MarkAborted([d] + s) == [AbortedState(d)] + MarkAborted(s)
  {
    assert forall i :: 0 < i < |[d] + s| ==> ([d] + s)[i] == s[i - 1];
  }

  lemma AbortCallbacksCons(d: IQueryData, s: seq<IQueryData>)
    ensures AbortCallbacks([d] + s) == AbortCallback(d) + AbortCallbacks(s)
  {
    assert ([d] + s)[1..] == s;
  }

  /** The callbacks of one queued step: the run's abort callback, then none from its release. */
  lemma StepCallbacks(cb: seq<HostEvent>, released: seq<HostEvent>, rest: seq<HostEvent>)
    requires Callbacks(cb) == cb
    requires forall e :: e in released ==> e.Unreference? || e.ReferenceFree?
    ensures Callbacks(cb + released + rest) == cb + Callbacks(rest)
  {
    CallbacksAppend(cb, released);
    CallbacksAppend(cb + released, rest);
    NoCallbacksInReleases(released);
    assert Callbacks(cb + released) == cb;
  }

  /** The loop's effect on the database queue and the running list. */
  ghost predicate AbortLists(q: IQueryState, queue: seq<nat>, pending: seq<IQueryData>, r: AbortRun)
  {
    && (r.wasAborted <==> Hit(pending, queue) != {})
    && (r.wasAborted <==> |r.aborted| > 0)
    && r.queue == DropIds(queue, IdsOf(pending))
    && r.query.running == RemoveIds(q.running, Hit(pending, queue))
  }

  /** The loop's effect on the rest of the object. */
  ghost predicate AbortObject(q: IQueryState, r: AbortRun)
  {
    && r.query.canBeDestroyed == (q.canBeDestroyed || (r.wasAborted && r.query.running == []))
    && r.query.(running := q.running, canBeDestroyed := q.canBeDestroyed) == q
  }

  /** The host calls an abort makes: callbacks, letting go of the object, releasing references. */
  predicate AbortEvent(e: HostEvent)
  {
    e.RunFunction? || e.RunCallback? || e.Unreference? || e.ReferenceFree?
  }

  /** The runs the loop aborted, in order, the callbacks they fired, in order, and nothing but abort calls. */
  ghost predicate AbortedRuns(queue: seq<nat>, pending: seq<IQueryData>, r: AbortRun)
  {
    && r.aborted == MarkAborted(StillQueued(pending, queue))
    && Callbacks(r.events) == AbortCallbacks(StillQueued(pending, queue))
    && (forall e :: e in r.events ==> AbortEvent(e))
  }

  /**
   * What the loop of `abort` over `pending` achieves, from object `q` and
   * database queue `queue` to the outcome `r`.
   */
  ghost predicate AbortOutcome(q: IQueryState, queue: seq<nat>, pending: seq<IQueryData>, r: AbortRun)
  {
    AbortLists(q, queue, pending, r) && AbortObject(q, r) && AbortedRuns(queue, pending, r)
  }

  /**
   * The loop of `abort` over the copied list `pending`: each run still in
   * the database queue is removed from it, marked aborted, gets its abort
   * callback and is finished.
   */
  function AbortFrom(q: IQueryState, queue: seq<nat>, pending: seq<IQueryData>): (r: AbortRun)
    requires forall i :: 0 <= i < |pending| && pending[i].id in queue ==> HasData(q.running, pending[i].id)
    ensures AbortOutcome(q, queue, pending, r)
    decreases |pending|
  {
    if pending == [] then
      AbortNothing(q, queue);
      AbortRun(q, queue, [], [], false)
    else
      var d := pending[0];
      if d.id in queue then
        var cb := AbortCallback(d);
        var fin := OnQueryDataFinished(q, d.SetStatus(QueryAborted));
        StillRegistered(q, queue, pending, fin.query);
        var rest := AbortFrom(fin.query, DropIds(queue, {d.id}), pending[1..]);
        var r := AbortRun(rest.query, rest.queue, [fin.data] + rest.aborted, cb + fin.events + rest.events, true);
        AbortQueued(q, queue, pending, fin, cb, rest, r);
        r
      else
        var rest := AbortFrom(q, queue, pending[1..]);
        AbortSkip(q, queue, pending, rest);
        rest
  }

  /** The loop over nothing changes nothing. */
  lemma AbortNothing(q: IQueryState, queue: seq<nat>)
    ensures AbortOutcome(q, queue, [], AbortRun(q, queue, [], [], false))
  {
    assert IdsOf([]) == {} && Hit([], queue) == {};
    DropAbsentIds(queue, {});
    RemoveIdsNone(q.running);
  }

  /** One step of the loop whose run was still queued. */
  lemma AbortQueued(q: IQueryState, queue: seq<nat>, pending: seq<IQueryData>, fin: Finished,
                    cb: seq<HostEvent>, rest: AbortRun, r: AbortRun)
    requires pending != [] && pending[0].id in queue
    requires HasData(q.running, pending[0].id)
    requires cb == AbortCallback(pending[0])
    requires fin == OnQueryDataFinished(q, pending[0].SetStatus(QueryAborted))
    requires AbortOutcome(fin.query, DropIds(queue, {pending[0].id}), pending[1..], rest)
    requires r == AbortRun(rest.query, rest.queue, [fin.data] + rest.aborted, cb + fin.events + rest.events, true)
    ensures AbortOutcome(q, queue, pending, r)
  {
    var queue' := DropIds(queue, {pending[0].id});
    AbortStep(q, queue, pending, fin.query, rest);
    QueuedLists(q, queue, pending, fin.query, rest, r);
    QueuedObject(q, fin.query, Hit(pending[1..], queue'), rest, r);
    QueuedRuns(queue, pending, fin, cb, rest, r);
  }

  lemma QueuedLists(q: IQueryState, queue: seq<nat>, pending: seq<IQueryData>, q1: IQueryState, rest: AbortRun, r: AbortRun)
    requires pending != [] && pending[0].id in queue
    requires q1.running == RemoveIds(q.running, {pending[0].id})
    requires AbortLists(q1, DropIds(queue, {pending[0].id}), pending[1..], rest)
    requires r.query == rest.query && r.queue == rest.queue && r.wasAborted && |r.aborted| == 1 + |rest.aborted|
    ensures AbortLists(q, queue, pending, r)
  {
    AbortStep(q, queue, pending, q1, rest);
  }

  lemma QueuedObject(q: IQueryState, q1: IQueryState, hit: set<nat>, rest: AbortRun, r: AbortRun)
    requires q1.canBeDestroyed == (q.canBeDestroyed || q1.running == [])
    requires q1.(running := q.running, canBeDestroyed := q.canBeDestroyed) == q
    requires rest.query.running == RemoveIds(q1.running, hit)
    requires rest.wasAborted <==> hit != {}
    requires AbortObject(q1, rest)
    requires r.query == rest.query && r.wasAborted
    ensures AbortObject(q, r)
  {
    if q1.running == [] {
      assert RemoveIds([], hit) == [];
    }
    if !rest.wasAborted {
      RemoveIdsNone(q1.running);
    }
  }

  lemma QueuedRuns(queue: seq<nat>, pending: seq<IQueryData>, fin: Finished, cb: seq<HostEvent>, rest: AbortRun, r: AbortRun)
    requires pending != [] && pending[0].id in queue
    requires cb == AbortCallback(pending[0])
    requires fin.data == AbortedState(pending[0])
    requires forall e :: e in fin.events ==> e.Unreference? || e.ReferenceFree?
    requires AbortedRuns(DropIds(queue, {pending[0].id}), pending[1..], rest)
    requires r.aborted == [fin.data] + rest.aborted && r.events == cb + fin.events + rest.events
    ensures AbortedRuns(queue, pending, r)
  {
    var tail := StillQueued(pending[1..], DropIds(queue, {pending[0].id}));
    assert StillQueued(pending, queue) == [pending[0]] + tail;
    MarkAbortedCons(pending[0], tail);
    AbortCallbacksCons(pending[0], tail);
    StepCallbacks(cb, fin.events, rest.events);
    assert forall e :: e in cb ==> e in Callbacks(cb);
  }

  /** After finishing the first pending run, every later still-queued run is still registered. */
  lemma StillRegistered(q: IQueryState, queue: seq<nat>, pending: seq<IQueryData>, q1: IQueryState)
    requires pending != [] && pending[0].id in queue
    requires forall i :: 0 <= i < |pending| && pending[i].id in queue ==> HasData(q.running, pending[i].id)
    requires q1.running == RemoveIds(q.running, {pending[0].id})
    ensures forall i :: 0 <= i < |pending[1..]| && pending[1..][i].id in DropIds(queue, {pending[0].id}) ==> HasData(q1.running, pending[1..][i].id)
  {
    forall i | 0 <= i < |pending[1..]| && pending[1..][i].id in DropIds(queue, {pending[0].id})
      ensures HasData(q1.running, pending[1..][i].id)
    {
      var id := pending[1..][i].id;
      assert pending[i + 1].id == id;
      var j :| 0 <= j < |q.running| && q.running[j].id == id;
      assert q.running[j] in q1.running;
      var k :| 0 <= k < |q1.running| && q1.running[k] == q.running[j];
    }
  }

  lemma {:induction false} RemoveIdsNone(s: seq<IQueryData>)
    ensures RemoveIds(s, {}) == s
  {
    if s != [] {
      RemoveIdsNone(s[1..]);
    }
  }

  /** The bookkeeping of one abort step whose run was still queued. */
  lemma AbortStep(q: IQueryState, queue: seq<nat>, pending: seq<IQueryData>, q1: IQueryState, rest: AbortRun)
    requires pending != [] && pending[0].id in queue
    requires q1.running == RemoveIds(q.running, {pending[0].id})
    requires rest.queue == DropIds(DropIds(queue, {pending[0].id}), IdsOf(pending[1..]))
    requires rest.query.running == RemoveIds(q1.running, Hit(pending[1..], DropIds(queue, {pending[0].id})))
    ensures rest.queue == DropIds(queue, IdsOf(pending))
    ensures rest.query.running == RemoveIds(q.running, Hit(pending, queue))
    ensures Hit(pending, queue) == {pending[0].id} + Hit(pending[1..], DropIds(queue, {pending[0].id}))
  {
    var id := pending[0].id;
    DropIdsTwice(queue, {id}, IdsOf(pending[1..]));
    assert IdsOf(pending) == {id} + IdsOf(pending[1..]) by {
      forall x | x in IdsOf(pending) ensures x in {id} + IdsOf(pending[1..]) {
        var i :| 0 <= i < |pending| && pending[i].id == x;
        if i > 0 { assert pending[1..][i - 1].id == x; }
      }
    }
    var queue' := DropIds(queue, {id});
    assert Hit(pending, queue) == {id} + Hit(pending[1..], queue');
    RemoveIdsTwice(q.running, {id}, Hit(pending[1..], queue'));
  }

  /** The bookkeeping of one abort step whose run was no longer queued. */
  lemma AbortSkip(q: IQueryState, queue: seq<nat>, pending: seq<IQueryData>, rest: AbortRun)
    requires pending != [] && pending[0].id !in queue
    requires rest.queue == DropIds(queue, IdsOf(pending[1..]))
    requires rest.query.running == RemoveIds(q.running, Hit(pending[1..], queue))
    ensures rest.queue == DropIds(queue, IdsOf(pending))
    ensures rest.query.running == RemoveIds(q.running, Hit(pending, queue))
    ensures Hit(pending, queue) == Hit(pending[1..], queue)
    ensures StillQueued(pending, queue) == StillQueued(pending[1..], queue)
  {
    var id := pending[0].id;
    IdsOfCons(pending);
    DropIdsTwice(queue, {id}, IdsOf(pending[1..]));
    DropAbsentIds(queue, {id});
    assert Hit(pending, queue) == Hit(pending[1..], queue);
    SkipNotQueued(pending, queue);
  }

  /** The abort loop passes over a run that is no longer queued. */
  lemma SkipNotQueued(pending: seq<IQueryData>, queue: seq<nat>)
    requires pending != [] && pending[0].id !in queue
    ensures StillQueued(pending, queue) == StillQueued(pending[1..], queue)
  {
    DropAbsentIds(queue, {pending[0].id});
  }

  lemma AbortedAreQueued(found: seq<IQueryData>, queue: seq<nat>)
    requires forall d :: d in found ==> d.id in queue
    ensures forall x :: x in MarkAborted(found) ==> x.status == QueryAborted && x.HoldsNoReferences() && x.id in queue
  {
    forall x | x in MarkAborted(found) ensures x.status == QueryAborted && x.HoldsNoReferences() && x.id in queue {
      var i :| 0 <= i < |found| && MarkAborted(found)[i] == x;
      assert found[i] in found;
    }
  }

  /**
   * `abort`: true exactly when some registered run was still in the
   * database queue. Those runs leave both the queue and the running list
   * and end ABORTED, in list order; each fires its abort callback.
   */
  function Abort(q: IQueryState, queue: seq<nat>): (r: AbortRun)
    ensures r.wasAborted <==> exists i :: 0 <= i < |q.running| && q.running[i].id in queue
    ensures r.queue == DropIds(queue, IdsOf(q.running))
    ensures r.query.running == RemoveIds(q.running, set x | x in queue)
    ensures r.query.canBeDestroyed == (q.canBeDestroyed || (r.wasAborted && r.query.running == []))
    ensures r.query.(running := q.running, canBeDestroyed := q.canBeDestroyed) == q
    ensures r.aborted == MarkAborted(StillQueued(q.running, queue))
    ensures Callbacks(r.events) == AbortCallbacks(StillQueued(q.running, queue))
    ensures forall x :: x in r.aborted ==> x.status == QueryAborted && x.HoldsNoReferences() && x.id in queue
    ensures |Callbacks(r.events)| <= |r.aborted|
    ensures forall e :: e in r.events ==> AbortEvent(e)
  {
    var r := AbortFrom(q, queue, q.running);
    RemoveIdsExtensional(q.running, Hit(q.running, queue), set x | x in queue);
    HitWhenSomeQueued(q.running, queue);
    AbortedAreQueued(StillQueued(q.running, queue), queue);
    r
  }

  /** Some identity of `running` is still queued exactly when some run of it is. */
  lemma HitWhenSomeQueued(running: seq<IQueryData>, queue: seq<nat>)
    ensures Hit(running, queue) != {} <==> exists i :: 0 <= i < |running| && running[i].id in queue
  {
    if exists i :: 0 <= i < |running| && running[i].id in queue {
      var i :| 0 <= i < |running| && running[i].id in queue;
      assert running[i].id in IdsOf(running);
      assert running[i].id in Hit(running, queue);
    }
    if Hit(running, queue) != {} {
      var id :| id in Hit(running, queue);
      var i :| 0 <= i < |running| && running[i].id == id;
    }
  }

  lemma MarkAbortedIds(s: seq<IQueryData>)
    ensures IdsOf(MarkAborted(s)) == IdsOf(s)
  {
    var m := MarkAborted(s);
    forall x | x in IdsOf(m) ensures x in IdsOf(s) {
      var i :| 0 <= i < |m| && m[i].id == x;
      assert s[i].id == x;
    }
    forall x | x in IdsOf(s) ensures x in IdsOf(m) {
      var i :| 0 <= i < |s| && s[i].id == x;
      assert m[i].id == x;
    }
  }

  /** `abort` aborts exactly the registered runs that were still queued. */
  lemma AbortAbortsExactlyTheQueued(q: IQueryState, queue: seq<nat>)
    ensures IdsOf(Abort(q, queue).aborted) == IdsOf(q.running) * (set x | x in queue)
  {
    StillQueuedIds(q.running, queue);
    MarkAbortedIds(StillQueued(q.running, queue));
  }

  /**
   * Each registered run still queued (the first record with its identity)
   * is aborted and fires its own abort callback: the abort reference if
   * set, else `onAborted` when it is first-data.
   */
  lemma AbortFiresEachQueuedCallback(q: IQueryState, queue: seq<nat>, i: nat)
    requires i < |q.running| && q.running[i].id in queue && FirstWithId(q.running, i)
    ensures AbortedState(q.running[i]) in Abort(q, queue).aborted
    ensures forall e :: e in AbortCallback(q.running[i]) ==> e in Abort(q, queue).events
  {
    var r := Abort(q, queue);
    var found := StillQueued(q.running, queue);
    StillQueuedFindsQueued(q.running, queue);
    var k :| 0 <= k < |found| && found[k] == q.running[i];
    assert r.aborted[k] == AbortedState(q.running[i]);
    forall e | e in AbortCallback(q.running[i]) ensures e in r.events {
      assert AbortCallback(found[k]) == [e];
      assert e in AbortCallbacks(found);
      assert e in Callbacks(r.events);
    }
  }

  /** Every callback `abort` fires is the abort callback of a registered run that was still queued. */
  lemma AbortFiresOnlyAbortCallbacks(q: IQueryState, queue: seq<nat>)
    ensures forall e :: e in Abort(q, queue).events && (e.RunFunction? || e.RunCallback?) ==>
              exists i :: 0 <= i < |q.running| && q.running[i].id in queue && AbortCallback(q.running[i]) == [e]
  {
    var r := Abort(q, queue);
    var found := StillQueued(q.running, queue);
    forall e | e in r.events && (e.RunFunction? || e.RunCallback?)
      ensures exists i :: 0 <= i < |q.running| && q.running[i].id in queue && AbortCallback(q.running[i]) == [e]
    {
      assert e in Callbacks(r.events);
      var k :| 0 <= k < |found| && AbortCallback(found[k]) == [e];
      assert found[k] in found;
      var i :| 0 <= i < |q.running| && q.running[i] == found[k];
    }
  }

  // ---------------------------------------------------------------------
  // The data of the last completed run

  /** `setCallbackData`: the run whose results the object now reports. */
  function SetCallbackData(q: IQueryState, data: IQueryData): (r: IQueryState)
    ensures HasCallbackData(r) && GetResultStatus(r) == data.GetResultStatus() && Error(r) == Some(data.GetError())
    ensures r.(callbackData := q.callbackData) == q
  {
    q.(callbackData := Some(data))
  }

  /** `hasCallbackData`: whether a completed run is attached. */
  predicate HasCallbackData(q: IQueryState)
  {
    q.callbackData.Some?
  }

  /**
   * Only `setCallbackData` attaches a run: a new object has none, and
   * registering, starting, finishing and aborting runs leave it as it was.
   */
  lemma CallbackDataOnlyFromSetCallbackData(q: IQueryState, data: IQueryData, refs: CallbackRefs, queue: seq<nat>, disconnected: bool)
    ensures !HasCallbackData(NewIQuery())
    ensures HasCallbackData(SetCallbackData(q, data))
    ensures HasCallbackData(AddQueryData(q, data, refs).query) == HasCallbackData(q)
    ensures var s := Start(q, data, refs, disconnected);
            s.Success? ==> HasCallbackData(s.value.query) == HasCallbackData(q)
    ensures HasData(q.running, data.id) ==> HasCallbackData(OnQueryDataFinished(q, data).query) == HasCallbackData(q)
    ensures HasCallbackData(Abort(q, queue).query) == HasCallbackData(q)
  {
  }

  /** `getResultStatus`: the attached run's result, NONE when there is none. */
  function GetResultStatus(q: IQueryState): (r: QueryResultStatus)
    ensures !HasCallbackData(q) ==> r == QueryNone
  {
    if !HasCallbackData(q) then QueryNone else q.callbackData.value.GetResultStatus()
  }

  /** `error`: the attached run's error text, nothing when there is no run. */
  function Error(q: IQueryState): (r: Option<string>)
    ensures r.Some? <==> HasCallbackData(q)
  {
    if !HasCallbackData(q) then None else Some(q.callbackData.value.GetError())
  }
}

=== FILE: query_data.dfy ===
/**
 * The per-run state record shared between a query object and the worker
 * thread (`IQueryData`), its status enumerations, the query options and the
 * exception type the C API wrappers raise (MySQLOO/include/IQuery.h).
 */
module QueryData {

  /** Lifecycle of one run of a query (`QueryStatus`). */
  datatype QueryStatus = QueryNotRunning | QueryRunning | QueryComplete | QueryAborted | QueryWaiting

  /** Outcome of one run (`QueryResultStatus`). */
  datatype QueryResultStatus = QueryNone | QueryError | QuerySuccess

  /** The four query options (`OPTION_*`), each one bit of a query's option word. */
  datatype QueryOption = NumericFields | NamedFields | InterpretData | Cache
  {
    /** The option's bit in the word. */
    function Bit(): nat
    {
      match this
      case NumericFields => 1
      case NamedFields => 2
      case InterpretData => 4
      case Cache => 8
    }
  }

  /**
   * The option word (`m_options`) whose set bits are exactly the options
   * in `options`; only these four bits are ever set in it.
   */
  function Word(options: set<QueryOption>): nat
  {
    (if NumericFields in options then 1 else 0)
    + (if NamedFields in options then 2 else 0)
    + (if InterpretData in options then 4 else 0)
    + (if Cache in options then 8 else 0)
  }

  /** Whether option `o`'s bit is set in the word `w` (`w & o`). */
  predicate HasBit(w: nat, o: QueryOption)
  {
    (w / o.Bit()) % 2 == 1
  }

  /** The word built from a set of options has exactly those options' bits set. */
  lemma WordHoldsExactlyItsOptions(options: set<QueryOption>, o: QueryOption)
    ensures HasBit(Word(options), o) <==> o in options
  {
    var n := if NumericFields in options then 1 else 0;
    var d := if NamedFields in options then 1 else 0;
    var i := if InterpretData in options then 1 else 0;
    var c := if Cache in options then 1 else 0;
    assert Word(options) == n + 2 * d + 4 * i + 8 * c;
    match o
    case NumericFields => assert Word(options) / 1 == n + 2 * (d + 2 * i + 4 * c);
    case NamedFields => assert Word(options) / 2 == d + 2 * (i + 2 * c);
    case InterpretData => assert Word(options) / 4 == i + 2 * c;
    case Cache => assert Word(options) / 8 == c;
  }

  /** Distinct option sets give distinct words: the word loses nothing. */
  lemma WordDeterminesOptions(a: set<QueryOption>, b: set<QueryOption>)
    requires Word(a) == Word(b)
    ensures a == b
  {
    forall o: QueryOption ensures o in a <==> o in b {
      WordHoldsExactlyItsOptions(a, o);
      WordHoldsExactlyItsOptions(b, o);
    }
  }

  /** The error a C API wrapper raises: a client error code and its message. */
  datatype MySQLException = MySQLException(errorCode: int, message: string)
  {
    function GetErrorCode(): int { errorCode }
    function What(): string { message }
  }

  /** Building an exception and reading it back yields what it was built with. */
  lemma ExceptionRoundTrip(code: int, message: string)
    ensures MySQLException(code, message).GetErrorCode() == code
    ensures MySQLException(code, message).What() == message
  {
  }

  /**
   * One run's state. `id` stands for the identity of the shared object:
   * the source compares these records by pointer, the model by `id`.
   */
  datatype IQueryData = IQueryData(
    id: nat,
    errorText: string,
    finished: bool,
    status: QueryStatus,
    resultStatus: QueryResultStatus,
    successReference: int,
    errorReference: int,
    abortReference: int,
    onDataReference: int,
    wasFirstData: bool)
  {
    function GetError(): string { errorText }
    function IsFinished(): bool { finished }
    function GetStatus(): QueryStatus { status }
    function GetResultStatus(): QueryResultStatus { resultStatus }
    function GetSuccessReference(): int { successReference }
    function GetErrorReference(): int { errorReference }
    function GetAbortReference(): int { abortReference }
    function GetOnDataReference(): int { onDataReference }
    function IsFirstData(): bool { wasFirstData }

    /** True when no callback reference is held. */
    predicate HoldsNoReferences()
    {
      successReference == 0 && errorReference == 0 && abortReference == 0 && onDataReference == 0
    }

    function SetError(err: string): (r: IQueryData)
      ensures r.GetError() == err
      ensures r.(errorText := errorText) == this
    {
      this.(errorText := err)
    }

    function SetFinished(isFinished: bool): (r: IQueryData)
      ensures r.IsFinished() == isFinished
      ensures r.(finished := finished) == this
    {
      this.(finished := isFinished)
    }

    function SetStatus(s: QueryStatus): (r: IQueryData)
      ensures r.GetStatus() == s
      ensures r.(status := status) == this
    {
      this.(status := s)
    }

    function SetResultStatus(s: QueryResultStatus): (r: IQueryData)
      ensures r.GetResultStatus() == s
      ensures r.(resultStatus := resultStatus) == this
    {
      this.(resultStatus := s)
    }
  }

  /** A freshly allocated record with the header's default member values. */
  function NewQueryData(id: nat): (d: IQueryData)
    ensures d.id == id
    ensures !d.IsFinished() && d.GetError() == ""
    ensures d.GetStatus() == QueryNotRunning && d.GetResultStatus() == QueryNone
    ensures d.HoldsNoReferences() && !d.IsFirstData()
  {
    IQueryData(id, "", false, QueryNotRunning, QueryNone, 0, 0, 0, 0, false)
  }

  /** Setting a field and reading any other field gives the value from before. */
  lemma SettersAreIndependent(d: IQueryData, err: string, fin: bool, s: QueryStatus, rs: QueryResultStatus)
    ensures d.SetError(err).IsFinished() == d.IsFinished()
    ensures d.SetError(err).GetStatus() == d.GetStatus()
    ensures d.SetFinished(fin).GetError() == d.GetError()
    ensures d.SetFinished(fin).GetResultStatus() == d.GetResultStatus()
    ensures d.SetStatus(s).GetResultStatus() == d.GetResultStatus()
    ensures d.SetStatus(s).IsFinished() == d.IsFinished()
    ensures d.SetResultStatus(rs).GetStatus() == d.GetStatus()
    ensures d.SetResultStatus(rs).GetError() == d.GetError()
    ensures d.SetError(err).GetResultStatus() == d.GetResultStatus()
    ensures d.SetFinished(fin).GetStatus() == d.GetStatus()
    ensures d.SetStatus(s).GetError() == d.GetError()
    ensures d.SetResultStatus(rs).IsFinished() == d.IsFinished()
    ensures d.SetError(err).SetFinished(fin) == d.SetFinished(fin).SetError(err)
    ensures d.SetError(err).SetStatus(s) == d.SetStatus(s).SetError(err)
    ensures d.SetError(err).SetResultStatus(rs) == d.SetResultStatus(rs).SetError(err)
    ensures d.SetFinished(fin).SetStatus(s) == d.SetStatus(s).SetFinished(fin)
    ensures d.SetFinished(fin).SetResultStatus(rs) == d.SetResultStatus(rs).SetFinished(fin)
    ensures d.SetStatus(s).SetResultStatus(rs) == d.SetResultStatus(rs).SetStatus(s)
  {
  }
}

=== FILE: run_properties.dfy ===
/**
 * Properties of `executeStatement`'s run, stated over the final batch
 * and the trace of calls it made: the auto-reconnect flag, the single
 * retry, rollback, the order of pushes, and what the units end as.
 */
module RunProperties {
  import opened Wrappers
  import opened QueryData
  import opened ClientApi
  import opened Transaction
  import opened TransactionRun

  // ---------------------------------------------------------------------
  // The auto-reconnect flag along a trace

  /** The auto-reconnect flag after the calls in `t`, starting from `flag`. */
  function FlagAfter(flag: bool, t: seq<RunEvent>): bool
    decreases |t|
  {
    if t == [] then flag
    else if t[|t| - 1].SetReconnect? then t[|t| - 1].on
    else FlagAfter(flag, t[..|t| - 1])
  }

  /** Calls that belong to the transaction itself and need auto-reconnect off. */
  predicate Working(e: RunEvent)
  {
    e.Exec? || e.Commit? || e == Autocommit(false)
  }

  /** Every transactional call in `t` happens while auto-reconnect is off. */
  ghost predicate OffWhileWorking(flag: bool, t: seq<RunEvent>)
  {
    forall k :: 0 <= k < |t| && Working(t[k]) ==> !FlagAfter(flag, t[..k])
  }

  lemma {:induction false} FlagAfterAppend(f: bool, a: seq<RunEvent>, b: seq<RunEvent>)
    ensures FlagAfter(f, a + b) == FlagAfter(FlagAfter(f, a), b)
    decreases |b|
  {
    if b == [] {
      assert a + b == a;
    } else {
      assert (a + b)[..|a + b| - 1] == a + b[..|b| - 1];
      FlagAfterAppend(f, a, b[..|b| - 1]);
    }
  }

  lemma {:induction false} FlagUnchanged(f: bool, t: seq<RunEvent>)
    requires forall e :: e in t ==> !e.SetReconnect?
    ensures FlagAfter(f, t) == f
    decreases |t|
  {
    if t != [] {
      assert t[|t| - 1] in t;
      assert forall e :: e in t[..|t| - 1] ==> e in t;
      FlagUnchanged(f, t[..|t| - 1]);
    }
  }

  lemma OffWhileWorkingAppend(f: bool, a: seq<RunEvent>, b: seq<RunEvent>)
    requires OffWhileWorking(f, a) && OffWhileWorking(FlagAfter(f, a), b)
    ensures OffWhileWorking(f, a + b)
  {
    forall k | 0 <= k < |a + b| && Working((a + b)[k]) ensures !FlagAfter(f, (a + b)[..k]) {
      if k < |a| {
        assert (a + b)[..k] == a[..k];
      } else {
        assert (a + b)[..k] == a + b[..k - |a|];
        assert (a + b)[k] == b[k - |a|];
        FlagAfterAppend(f, a, b[..k - |a|]);
      }
    }
  }

  lemma NoWorkIsOff(f: bool, t: seq<RunEvent>)
    requires forall e :: e in t ==> !Working(e)
    ensures OffWhileWorking(f, t)
  {
    forall k | 0 <= k < |t| ensures !Working(t[k]) {
      assert t[k] in t;
    }
  }

  /** Transactional calls leave the flag alone. */
  lemma WorkKeepsFlag(f: bool, t: seq<RunEvent>)
    requires forall e :: e in t ==> Working(e)
    ensures FlagAfter(f, t) == f
  {
    forall e | e in t ensures !e.SetReconnect? {
      assert Working(e);
    }
    FlagUnchanged(f, t);
  }

  /** A run's first attempt: the flag is turned off, then only transactional calls follow. */
  lemma AttemptIsOff(f: bool, events: seq<RunEvent>)
    requires forall e :: e in events ==> Working(e)
    ensures OffWhileWorking(f, [SetReconnect(false)] + events)
    ensures !FlagAfter(f, [SetReconnect(false)] + events)
  {
    var t := [SetReconnect(false)] + events;
    forall k | 0 < k < |t| ensures !FlagAfter(f, t[..k]) {
      var done := events[..k - 1];
      assert t[..k] == [SetReconnect(false)] + done;
      forall e | e in done ensures Working(e) {
        assert e in events;
      }
      FlagAfterAppend(f, [SetReconnect(false)], done);
      WorkKeepsFlag(false, done);
    }
    FlagAfterAppend(f, [SetReconnect(false)], events);
    WorkKeepsFlag(false, events);
  }

  /** An attempt makes only transactional calls. */
  lemma AttemptEventsAreWork(queries: seq<QueryPair>, s: AttemptScript)
    ensures forall e :: e in RunAttempt(queries, s).events ==> Working(e)
  {
    var a := RunAttempt(queries, s);
    AttemptOutcome(queries, s);
    var execs := ExecEvents(0, a.executed);
    forall e | e in a.events ensures Working(e) {
      if e in execs {
        var k :| 0 <= k < |execs| && execs[k] == e;
      }
    }
  }

  // ---------------------------------------------------------------------
  // One step of the run

  /**
   * Whether attempt `s` of a run entered with auto-reconnect `reconnect`
   * retries: auto-reconnect was on, the batch was not yet retried, the
   * attempt failed with a lost-connection code, and the ping succeeded.
   */
  predicate RetryTaken(reconnect: bool, b: TransactionData, s: AttemptScript)
  {
    var a := RunAttempt(b.queries, s);
    && reconnect
    && !b.retried
    && a.error.Some?
    && IsConnectionLost(a.error.value.GetErrorCode())
    && s.pingOk
  }

  /** The batch a retry runs on: this attempt's pairs, the batch marked failed, then cleared and marked retried. */
  function RetryBatch(b: TransactionData, s: AttemptScript): (r: TransactionData)
    requires RunAttempt(b.queries, s).error.Some?
    ensures r.retried
    ensures r.queries == ClearFinished(RunAttempt(b.queries, s).queries)
  {
    var a := RunAttempt(b.queries, s);
    PrepareRetry(b.(queries := a.queries, base := b.base.SetStatus(QueryRunning).SetResultStatus(QueryError).SetError(a.error.value.What())))
  }

  /**
   * The calls between an attempt and the push loop of a run that does not
   * retry, given the flag it was entered with, whether the batch was
   * already retried, and the attempt's error.
   */
  function Settled(reconnect: bool, retried: bool, error: Option<MySQLException>): seq<RunEvent>
  {
    if error.None? then []
    else if reconnect && !retried && IsConnectionLost(error.value.GetErrorCode()) then [SetReconnect(true), Ping, Rollback]
    else [Rollback]
  }

  /** A run whose attempt retries: the retry's batch, inside the probe and the restore. */
  lemma ExecuteRetries(reconnect: bool, b: TransactionData, conn: Connection, attempt: nat)
    requires RetryTaken(reconnect, b, conn.Attempt(attempt))
    ensures var r := Execute(reconnect, b, conn, attempt);
            var s := conn.Attempt(attempt);
            var inner := Execute(true, RetryBatch(b, s), conn, attempt + 1);
            && r.batch == inner.batch
            && r.trace == [SetReconnect(false)] + RunAttempt(b.queries, s).events + [SetReconnect(true), Ping] + inner.trace + [SetReconnect(reconnect)]
  {
  }

  /** The calls of a run whose attempt settles: the attempt, its settling, the pushes, the restore. */
  lemma ExecuteSettlesTrace(reconnect: bool, b: TransactionData, conn: Connection, attempt: nat)
    requires !RetryTaken(reconnect, b, conn.Attempt(attempt))
    ensures var a := RunAttempt(b.queries, conn.Attempt(attempt));
            Execute(reconnect, b, conn, attempt).trace
              == [SetReconnect(false)] + a.events + Settled(reconnect, b.retried, a.error) + PushEvents(a.queries, 0) + [Autocommit(true), SetReconnect(reconnect)]
  {
    var a := RunAttempt(b.queries, conn.Attempt(attempt));
    var begun := [SetReconnect(false)] + a.events;
    if a.error.Some? && reconnect && !b.retried && IsConnectionLost(a.error.value.GetErrorCode()) {
      assert begun + [SetReconnect(true), Ping] + [Rollback] == begun + [SetReconnect(true), Ping, Rollback];
    }
  }

  /** The batch of a run whose attempt settles: the attempt's pairs, with the attempt's outcome. */
  lemma ExecuteSettlesBatch(reconnect: bool, b: TransactionData, conn: Connection, attempt: nat)
    requires !RetryTaken(reconnect, b, conn.Attempt(attempt))
    ensures var r := Execute(reconnect, b, conn, attempt);
            var a := RunAttempt(b.queries, conn.Attempt(attempt));
            && r.batch.queries == a.queries
            && r.batch.retried == b.retried
            && r.batch.base.GetResultStatus() == (if a.error.None? then QuerySuccess else QueryError)
            && (a.error.Some? ==> r.batch.base.GetError() == a.error.value.What())
            && (a.error.None? ==> r.batch.base.GetError() == b.base.GetError())
  {
  }

  /**
   * A retry that then succeeds reports success, but the run's error text
   * is still the one the lost connection left: nothing on the success
   * path clears it.
   */
  lemma RetrySuccessKeepsFirstError(reconnect: bool, b: TransactionData, conn: Connection, attempt: nat)
    requires RetryTaken(reconnect, b, conn.Attempt(attempt))
    requires RunAttempt(RetryBatch(b, conn.Attempt(attempt)).queries, conn.Attempt(attempt + 1)).error.None?
    ensures var r := Execute(reconnect, b, conn, attempt);
            && r.batch.base.GetResultStatus() == QuerySuccess
            && r.batch.base.GetError() == RunAttempt(b.queries, conn.Attempt(attempt)).error.value.What()
  {
    var s := conn.Attempt(attempt);
    var retry := RetryBatch(b, s);
    ExecuteRetries(reconnect, b, conn, attempt);
    assert retry.base.GetError() == RunAttempt(b.queries, s).error.value.What();
    var inner := Execute(true, retry, conn, attempt + 1);
    assert inner.batch.base.(status := retry.base.status) == retry.base.SetResultStatus(QuerySuccess);
  }

  // ---------------------------------------------------------------------
  // The flag across a whole run

  /** The flag along a retrying run's trace, given the flag along the retry's. */
  lemma RetryTraceFlag(reconnect: bool, events: seq<RunEvent>, inner: seq<RunEvent>)
    requires forall e :: e in events ==> Working(e)
    requires OffWhileWorking(true, inner)
    ensures var t := [SetReconnect(false)] + events + [SetReconnect(true), Ping] + inner + [SetReconnect(reconnect)];
            FlagAfter(reconnect, t) == reconnect && OffWhileWorking(reconnect, t)
  {
    var begun := [SetReconnect(false)] + events;
    var probe := [SetReconnect(true), Ping];
    var probed := begun + probe;
    var restore := [SetReconnect(reconnect)];
    AttemptIsOff(reconnect, events);
    NoWorkIsOff(FlagAfter(reconnect, begun), probe);
    OffWhileWorkingAppend(reconnect, begun, probe);
    FlagAfterAppend(reconnect, begun, probe);
    assert probe[..1] == [SetReconnect(true)];
    OffWhileWorkingAppend(reconnect, probed, inner);
    NoWorkIsOff(FlagAfter(reconnect, probed + inner), restore);
    OffWhileWorkingAppend(reconnect, probed + inner, restore);
    var t := probed + inner + restore;
    assert t[|t| - 1] == SetReconnect(reconnect);
  }

  /** The flag along a settling run's trace. */
  lemma SettleTraceFlag(reconnect: bool, events: seq<RunEvent>, settled: seq<RunEvent>, pushed: seq<RunEvent>)
    requires forall e :: e in events ==> Working(e)
    requires forall e :: e in settled ==> e.SetReconnect? || e == Ping || e == Rollback
    requires PushesOnly(pushed)
    ensures var t := [SetReconnect(false)] + events + settled + pushed + [Autocommit(true), SetReconnect(reconnect)];
            FlagAfter(reconnect, t) == reconnect && OffWhileWorking(reconnect, t)
  {
    var begun := [SetReconnect(false)] + events;
    var tail := settled + pushed + [Autocommit(true)];
    SettledTailIsNoWork(settled, pushed);
    var rest := tail + [SetReconnect(reconnect)];
    AttemptIsOff(reconnect, events);
    NoWorkIsOff(FlagAfter(reconnect, begun), rest);
    OffWhileWorkingAppend(reconnect, begun, rest);
    var t := begun + rest;
    assert t == [SetReconnect(false)] + events + settled + pushed + [Autocommit(true), SetReconnect(reconnect)];
    assert t[|t| - 1] == SetReconnect(reconnect);
  }

  /** Nothing a settling run does after its attempt is work on the connection. */
  lemma SettledTailIsNoWork(settled: seq<RunEvent>, pushed: seq<RunEvent>)
    requires forall e :: e in settled ==> e.SetReconnect? || e == Ping || e == Rollback
    requires PushesOnly(pushed)
    ensures forall e :: e in settled + pushed + [Autocommit(true)] ==> !Working(e)
  {
  }

  /**
   * `executeStatement` leaves the auto-reconnect flag as it found it, on
   * every path, and every statement, the commit and the switch to manual
   * commit run with auto-reconnect off, on the retry too.
   */
  lemma {:induction false} ReconnectFlagRestored(reconnect: bool, b: TransactionData, conn: Connection, attempt: nat)
    ensures FlagAfter(reconnect, Execute(reconnect, b, conn, attempt).trace) == reconnect
    ensures OffWhileWorking(reconnect, Execute(reconnect, b, conn, attempt).trace)
    decreases if b.retried then 0 else 1
  {
    var s := conn.Attempt(attempt);
    var a := RunAttempt(b.queries, s);
    AttemptEventsAreWork(b.queries, s);
    if RetryTaken(reconnect, b, s) {
      ExecuteRetries(reconnect, b, conn, attempt);
      ReconnectFlagRestored(true, RetryBatch(b, s), conn, attempt + 1);
      RetryTraceFlag(reconnect, a.events, Execute(true, RetryBatch(b, s), conn, attempt + 1).trace);
    } else {
      SettledRunFlag(reconnect, b, conn, attempt);
    }
  }

  /** The flag along a run that does not retry. */
  lemma SettledRunFlag(reconnect: bool, b: TransactionData, conn: Connection, attempt: nat)
    requires !RetryTaken(reconnect, b, conn.Attempt(attempt))
    ensures FlagAfter(reconnect, Execute(reconnect, b, conn, attempt).trace) == reconnect
    ensures OffWhileWorking(reconnect, Execute(reconnect, b, conn, attempt).trace)
  {
    var a := RunAttempt(b.queries, conn.Attempt(attempt));
    AttemptEventsAreWork(b.queries, conn.Attempt(attempt));
    ExecuteSettlesTrace(reconnect, b, conn, attempt);
    SettleTraceFlag(reconnect, a.events, Settled(reconnect, b.retried, a.error), PushEvents(a.queries, 0));
  }

  // ---------------------------------------------------------------------
  // Counting calls

  /** How many times the call `e` occurs in `t`. */
  function Occurrences(e: RunEvent, t: seq<RunEvent>): nat
  {
    if t == [] then 0 else (if t[0] == e then 1 else 0) + Occurrences(e, t[1..])
  }

  lemma {:induction false} OccurrencesAppend(e: RunEvent, a: seq<RunEvent>, b: seq<RunEvent>)
    ensures Occurrences(e, a + b) == Occurrences(e, a) + Occurrences(e, b)
  {
    if a == [] {
      assert a + b == b;
    } else {
      assert (a + b)[1..] == a[1..] + b;
      OccurrencesAppend(e, a[1..], b);
    }
  }

  lemma {:induction false} OccurrencesIn(e: RunEvent, t: seq<RunEvent>)
    ensures e in t <==> Occurrences(e, t) > 0
  {
    if t != [] {
      OccurrencesIn(e, t[1..]);
      assert t == [t[0]] + t[1..];
    }
  }

  lemma OccurrencesOfSingle(e: RunEvent, x: RunEvent)
    ensures Occurrences(e, [x]) == if x == e then 1 else 0
  {
    assert [x][1..] == [];
  }

  /** An attempt's calls: autocommit off first, then only statements and the commit. */
  lemma AttemptEventsShape(queries: seq<QueryPair>, s: AttemptScript)
    ensures var t := RunAttempt(queries, s).events;
            && |t| > 0 && t[0] == Autocommit(false)
            && forall k :: 1 <= k < |t| ==> t[k].Exec? || t[k] == Commit
  {
    AttemptOutcome(queries, s);
  }

  /** Counts along any trace shaped like an attempt's calls. */
  lemma AttemptShapeCounts(t: seq<RunEvent>)
    requires |t| > 0 && t[0] == Autocommit(false)
    requires forall k :: 1 <= k < |t| ==> t[k].Exec? || t[k] == Commit
    ensures && Occurrences(Autocommit(false), t) == 1 && Occurrences(Ping, t) == 0 && Occurrences(Rollback, t) == 0
            && Autocommit(true) !in t && (forall e :: e in t ==> !e.Push?)
  {
    var rest := t[1..];
    assert forall e :: e in rest ==> e.Exec? || e == Commit;
    OccurrencesIn(Autocommit(false), rest);
    OccurrencesIn(Ping, t);
    OccurrencesIn(Rollback, t);
  }

  lemma AttemptCounts(queries: seq<QueryPair>, s: AttemptScript)
    ensures var t := RunAttempt(queries, s).events;
            && Occurrences(Autocommit(false), t) == 1 && Occurrences(Ping, t) == 0 && Occurrences(Rollback, t) == 0
            && Autocommit(true) !in t && (forall e :: e in t ==> !e.Push?)
  {
    AttemptEventsShape(queries, s);
    AttemptShapeCounts(RunAttempt(queries, s).events);
  }

  lemma PushEventsCounts(queries: seq<QueryPair>)
    ensures var t := PushEvents(queries, 0);
            && Occurrences(Autocommit(false), t) == 0 && Occurrences(Ping, t) == 0 && Occurrences(Rollback, t) == 0
            && Autocommit(true) !in t && (forall e :: e in t ==> !e.SetReconnect?)
  {
    var t := PushEvents(queries, 0);
    OccurrencesIn(Autocommit(false), t);
    OccurrencesIn(Ping, t);
    OccurrencesIn(Rollback, t);
  }

  lemma SettledCounts(reconnect: bool, retried: bool, error: Option<MySQLException>)
    ensures var t := Settled(reconnect, retried, error);
            && Occurrences(Autocommit(false), t) == 0
            && Occurrences(Rollback, t) == (if error.Some? then 1 else 0)
            && Occurrences(Ping, t) <= 1
            && (retried ==> Occurrences(Ping, t) == 0)
            && (forall e :: e in t ==> !e.Push? && e != Autocommit(true))
  {
    var t := Settled(reconnect, retried, error);
    if t == [SetReconnect(true), Ping, Rollback] {
      assert t[1..] == [Ping, Rollback] && t[1..][1..] == [Rollback];
      OccurrencesOfSingle(Autocommit(false), Rollback);
      OccurrencesOfSingle(Rollback, Rollback);
      OccurrencesOfSingle(Ping, Rollback);
    } else if t == [Rollback] {
      OccurrencesOfSingle(Autocommit(false), Rollback);
      OccurrencesOfSingle(Rollback, Rollback);
      OccurrencesOfSingle(Ping, Rollback);
    }
  }

  /** Any call other than a flag change, counted along a retrying run's trace. */
  lemma RetryTraceOccurrences(e: RunEvent, reconnect: bool, events: seq<RunEvent>, inner: seq<RunEvent>)
    requires !e.SetReconnect?
    ensures Occurrences(e, [SetReconnect(false)] + events + [SetReconnect(true), Ping] + inner + [SetReconnect(reconnect)])
         == Occurrences(e, events) + (if e == Ping then 1 else 0) + Occurrences(e, inner)
  {
    var probe := [SetReconnect(true), Ping];
    OccurrencesAppend(e, [SetReconnect(false)], events);
    OccurrencesAppend(e, [SetReconnect(false)] + events, probe);
    OccurrencesAppend(e, [SetReconnect(false)] + events + probe, inner);
    OccurrencesAppend(e, [SetReconnect(false)] + events + probe + inner, [SetReconnect(reconnect)]);
    OccurrencesOfSingle(e, SetReconnect(false));
    OccurrencesOfSingle(e, SetReconnect(reconnect));
    OccurrencesOfSingle(e, Ping);
    assert probe[1..] == [Ping];
  }

  /** Any call other than a flag change, counted along a settling run's trace. */
  lemma SettleTraceOccurrences(e: RunEvent, reconnect: bool, events: seq<RunEvent>, settled: seq<RunEvent>, pushes: seq<RunEvent>)
    requires !e.SetReconnect?
    ensures Occurrences(e, [SetReconnect(false)] + events + settled + pushes + [Autocommit(true), SetReconnect(reconnect)])
         == Occurrences(e, events) + Occurrences(e, settled) + Occurrences(e, pushes) + (if e == Autocommit(true) then 1 else 0)
  {
    var last := [Autocommit(true), SetReconnect(reconnect)];
    OccurrencesAppend(e, [SetReconnect(false)], events);
    OccurrencesAppend(e, [SetReconnect(false)] + events, settled);
    OccurrencesAppend(e, [SetReconnect(false)] + events + settled, pushes);
    OccurrencesAppend(e, [SetReconnect(false)] + events + settled + pushes, last);
    OccurrencesOfSingle(e, SetReconnect(false));
    OccurrencesOfSingle(e, SetReconnect(reconnect));
    assert last[1..] == [SetReconnect(reconnect)];
  }

  // ---------------------------------------------------------------------
  // The single retry

  /**
   * A run retries at most once: the batch ends retried exactly when it
   * started retried or this attempt's retry conditions all held; there
   * are two attempts exactly when a retry was taken, and at most one ping.
   */
  lemma {:induction false} RetryAtMostOnce(reconnect: bool, b: TransactionData, conn: Connection, attempt: nat)
    ensures var r := Execute(reconnect, b, conn, attempt);
            && r.batch.retried == (b.retried || RetryTaken(reconnect, b, conn.Attempt(attempt)))
            && Occurrences(Autocommit(false), r.trace) == (if RetryTaken(reconnect, b, conn.Attempt(attempt)) then 2 else 1)
            && Occurrences(Ping, r.trace) <= 1
            && (b.retried ==> Occurrences(Ping, r.trace) == 0)
    decreases if b.retried then 0 else 1
  {
    var s := conn.Attempt(attempt);
    var a := RunAttempt(b.queries, s);
    AttemptCounts(b.queries, s);
    if RetryTaken(reconnect, b, s) {
      ExecuteRetries(reconnect, b, conn, attempt);
      var inner := Execute(true, RetryBatch(b, s), conn, attempt + 1);
      RetryAtMostOnce(true, RetryBatch(b, s), conn, attempt + 1);
      RetryTraceOccurrences(Autocommit(false), reconnect, a.events, inner.trace);
      RetryTraceOccurrences(Ping, reconnect, a.events, inner.trace);
    } else {
      ExecuteSettlesTrace(reconnect, b, conn, attempt);
      ExecuteSettlesBatch(reconnect, b, conn, attempt);
      SettledCounts(reconnect, b.retried, a.error);
      PushEventsCounts(a.queries);
      SettleTraceOccurrences(Autocommit(false), reconnect, a.events, Settled(reconnect, b.retried, a.error), PushEvents(a.queries, 0));
      SettleTraceOccurrences(Ping, reconnect, a.events, Settled(reconnect, b.retried, a.error), PushEvents(a.queries, 0));
    }
  }

  // ---------------------------------------------------------------------
  // Rollback, commit and the batch's result

  /** Whether an attempt over `n` statements commits successfully. */
  predicate AttemptSucceeds(s: AttemptScript, n: nat)
  {
    ReachesCommit(s, n) && s.commitOk
  }

  /**
   * A run rolls back exactly when it ends in error, and at most once; it
   * ends in success exactly when the last attempt it made committed.
   */
  lemma {:induction false} RollbackExactlyOnError(reconnect: bool, b: TransactionData, conn: Connection, attempt: nat)
    ensures var r := Execute(reconnect, b, conn, attempt);
            && (Rollback in r.trace <==> r.batch.base.GetResultStatus() == QueryError)
            && Occurrences(Rollback, r.trace) <= 1
            && r.batch.base.GetResultStatus() != QueryNone
            && (r.batch.base.GetResultStatus() == QuerySuccess <==>
                  if RetryTaken(reconnect, b, conn.Attempt(attempt))
                  then AttemptSucceeds(conn.Attempt(attempt + 1), |b.queries|)
                  else AttemptSucceeds(conn.Attempt(attempt), |b.queries|))
    decreases if b.retried then 0 else 1
  {
    var s := conn.Attempt(attempt);
    var a := RunAttempt(b.queries, s);
    var r := Execute(reconnect, b, conn, attempt);
    AttemptCounts(b.queries, s);
    OccurrencesIn(Rollback, r.trace);
    if RetryTaken(reconnect, b, s) {
      ExecuteRetries(reconnect, b, conn, attempt);
      var inner := Execute(true, RetryBatch(b, s), conn, attempt + 1);
      RollbackExactlyOnError(true, RetryBatch(b, s), conn, attempt + 1);
      RetryTraceOccurrences(Rollback, reconnect, a.events, inner.trace);
      OccurrencesIn(Rollback, inner.trace);
    } else {
      ExecuteSettlesTrace(reconnect, b, conn, attempt);
      ExecuteSettlesBatch(reconnect, b, conn, attempt);
      SettledCounts(reconnect, b.retried, a.error);
      PushEventsCounts(a.queries);
      SettleTraceOccurrences(Rollback, reconnect, a.events, Settled(reconnect, b.retried, a.error), PushEvents(a.queries, 0));
    }
  }

  /**
   * A failed commit is never retried: the run rolls back and ends in
   * error with "commit failed", even when a retry would otherwise be allowed.
   */
  lemma CommitFailureNeverRetried(reconnect: bool, b: TransactionData, conn: Connection)
    requires ReachesCommit(conn.first, |b.queries|) && !conn.first.commitOk
    ensures !RetryTaken(reconnect, b, conn.first)
    ensures var r := Run(reconnect, b, conn);
            && r.batch.retried == b.retried
            && Commit in r.trace && Rollback in r.trace
            && r.batch.base.GetResultStatus() == QueryError
            && r.batch.base.GetError() == "commit failed"
  {
    CommitFailureIsNotConnectionLost();
    var a := RunAttempt(b.queries, conn.first);
    AttemptOutcome(b.queries, conn.first);
    assert a.error == Some(CommitFailed);
    assert Settled(reconnect, b.retried, a.error) == [Rollback];
    ExecuteSettlesTrace(reconnect, b, conn, 0);
    ExecuteSettlesBatch(reconnect, b, conn, 0);
    var last := PushEvents(a.queries, 0) + [Autocommit(true), SetReconnect(reconnect)];
    assert a.events[|a.events| - 1] == Commit;
    CommitThenRollback([SetReconnect(false)] + a.events, last);
  }

  /** A trace that commits, then rolls back, holds both calls. */
  lemma CommitThenRollback(begun: seq<RunEvent>, last: seq<RunEvent>)
    requires |begun| > 0 && begun[|begun| - 1] == Commit
    ensures Commit in begun + [Rollback] + last && Rollback in begun + [Rollback] + last
  {
    assert (begun + [Rollback] + last)[|begun| - 1] == Commit;
    assert (begun + [Rollback] + last)[|begun|] == Rollback;
  }

  // ---------------------------------------------------------------------
  // The push loop

  lemma {:induction false} NoPushes(t: seq<RunEvent>)
    requires forall e :: e in t ==> !e.Push?
    ensures Pushes(t) == []
  {
    if t != [] {
      assert t[0] in t;
      assert forall e :: e in t[1..] ==> e in t;
      NoPushes(t[1..]);
    }
  }

  /** Once autocommit is turned back on, only the auto-reconnect flag is touched. */
  ghost predicate OnlyRestoresAfterCommitMode(t: seq<RunEvent>)
  {
    forall j, k :: 0 <= j < k < |t| && t[j] == Autocommit(true) ==> t[k].SetReconnect?
  }

  lemma WrappedPushes(before: seq<RunEvent>, inner: seq<RunEvent>, after: seq<RunEvent>)
    requires forall e :: e in before ==> !e.Push?
    requires forall e :: e in after ==> !e.Push?
    ensures Pushes(before + inner + after) == Pushes(inner)
  {
    NoPushes(before);
    NoPushes(after);
    PushesAppend(before, inner);
    PushesAppend(before + inner, after);
  }

  lemma WrappedTail(before: seq<RunEvent>, inner: seq<RunEvent>, after: seq<RunEvent>)
    requires Autocommit(true) !in before
    requires forall e :: e in after ==> e.SetReconnect?
    requires OnlyRestoresAfterCommitMode(inner)
    ensures OnlyRestoresAfterCommitMode(before + inner + after)
  {
    var t := before + inner + after;
    forall j, k | 0 <= j < k < |t| && t[j] == Autocommit(true) ensures t[k].SetReconnect? {
      assert |before| <= j;
      if k < |before| + |inner| {
        assert t[j] == inner[j - |before|];
        assert t[k] == inner[k - |before|];
      } else {
        assert t[k] == after[k - |before| - |inner|];
      }
    }
  }

  lemma SettleTraceTail(reconnect: bool, body: seq<RunEvent>, pushes: seq<RunEvent>)
    requires forall e :: e in body ==> !e.Push? && e != Autocommit(true)
    requires Autocommit(true) !in pushes
    ensures var t := body + pushes + [Autocommit(true), SetReconnect(reconnect)];
            && Pushes(t) == Pushes(pushes)
            && OnlyRestoresAfterCommitMode(t)
  {
    var last := [Autocommit(true), SetReconnect(reconnect)];
    var t := body + pushes + last;
    NoPushes(body);
    NoPushes(last);
    PushesAppend(body, pushes);
    PushesAppend(body + pushes, last);
    forall j, k | 0 <= j < k < |t| && t[j] == Autocommit(true) ensures t[k].SetReconnect? {
      assert j == |t| - 2;
    }
  }

  /**
   * Exactly the finished pairs of the final batch are pushed, once each,
   * in batch order; the retrying call pushes nothing of its own.
   */
  lemma {:induction false} PushOrderEqualsBatchOrder(reconnect: bool, b: TransactionData, conn: Connection, attempt: nat)
    ensures var r := Execute(reconnect, b, conn, attempt);
            && StrictlyIncreasing(Pushes(r.trace))
            && (forall x :: x in Pushes(r.trace) <==> 0 <= x < |r.batch.queries| && r.batch.queries[x].data.IsFinished())
    decreases if b.retried then 0 else 1
  {
    var s := conn.Attempt(attempt);
    if RetryTaken(reconnect, b, s) {
      PushOrderEqualsBatchOrder(true, RetryBatch(b, s), conn, attempt + 1);
      RetriedPushOrder(reconnect, b, conn, attempt);
    } else {
      SettledPushOrder(reconnect, b, conn, attempt);
    }
  }

  /** The pushes of a run that retries are the retry's. */
  lemma RetriedPushOrder(reconnect: bool, b: TransactionData, conn: Connection, attempt: nat)
    requires RetryTaken(reconnect, b, conn.Attempt(attempt))
    requires var inner := Execute(true, RetryBatch(b, conn.Attempt(attempt)), conn, attempt + 1);
             && StrictlyIncreasing(Pushes(inner.trace))
             && (forall x :: x in Pushes(inner.trace) <==> 0 <= x < |inner.batch.queries| && inner.batch.queries[x].data.IsFinished())
    ensures var r := Execute(reconnect, b, conn, attempt);
            && StrictlyIncreasing(Pushes(r.trace))
            && (forall x :: x in Pushes(r.trace) <==> 0 <= x < |r.batch.queries| && r.batch.queries[x].data.IsFinished())
  {
    var s := conn.Attempt(attempt);
    var a := RunAttempt(b.queries, s);
    AttemptCounts(b.queries, s);
    ExecuteRetries(reconnect, b, conn, attempt);
    var inner := Execute(true, RetryBatch(b, s), conn, attempt + 1);
    WrappedPushes([SetReconnect(false)] + a.events + [SetReconnect(true), Ping], inner.trace, [SetReconnect(reconnect)]);
  }

  /** The pushes of a run that does not retry. */
  lemma SettledPushOrder(reconnect: bool, b: TransactionData, conn: Connection, attempt: nat)
    requires !RetryTaken(reconnect, b, conn.Attempt(attempt))
    ensures var r := Execute(reconnect, b, conn, attempt);
            && StrictlyIncreasing(Pushes(r.trace))
            && (forall x :: x in Pushes(r.trace) <==> 0 <= x < |r.batch.queries| && r.batch.queries[x].data.IsFinished())
  {
    var s := conn.Attempt(attempt);
    var a := RunAttempt(b.queries, s);
    AttemptCounts(b.queries, s);
    ExecuteSettlesTrace(reconnect, b, conn, attempt);
    ExecuteSettlesBatch(reconnect, b, conn, attempt);
    SettledCounts(reconnect, b.retried, a.error);
    var body := [SetReconnect(false)] + a.events + Settled(reconnect, b.retried, a.error);
    WrappedPushes(body, PushEvents(a.queries, 0), [Autocommit(true), SetReconnect(reconnect)]);
  }

  /**
   * Autocommit is turned back on exactly once per run, and after that
   * only the auto-reconnect flag is touched: nothing is pushed later.
   */
  lemma {:induction false} CommitModeRestoredLast(reconnect: bool, b: TransactionData, conn: Connection, attempt: nat)
    ensures var r := Execute(reconnect, b, conn, attempt);
            && Occurrences(Autocommit(true), r.trace) == 1
            && OnlyRestoresAfterCommitMode(r.trace)
    decreases if b.retried then 0 else 1
  {
    var s := conn.Attempt(attempt);
    if RetryTaken(reconnect, b, s) {
      CommitModeRestoredLast(true, RetryBatch(b, s), conn, attempt + 1);
      RetriedCommitMode(reconnect, b, conn, attempt);
    } else {
      SettledCommitMode(reconnect, b, conn, attempt);
    }
  }

  /** Autocommit is turned back on once, and last, in a run that retries, given that the retry does so. */
  lemma RetriedCommitMode(reconnect: bool, b: TransactionData, conn: Connection, attempt: nat)
    requires RetryTaken(reconnect, b, conn.Attempt(attempt))
    requires var inner := Execute(true, RetryBatch(b, conn.Attempt(attempt)), conn, attempt + 1);
             Occurrences(Autocommit(true), inner.trace) == 1 && OnlyRestoresAfterCommitMode(inner.trace)
    ensures var r := Execute(reconnect, b, conn, attempt);
            && Occurrences(Autocommit(true), r.trace) == 1
            && OnlyRestoresAfterCommitMode(r.trace)
  {
    var s := conn.Attempt(attempt);
    var a := RunAttempt(b.queries, s);
    AttemptCounts(b.queries, s);
    ExecuteRetries(reconnect, b, conn, attempt);
    RetryTraceCommitMode(reconnect, a.events, Execute(true, RetryBatch(b, s), conn, attempt + 1).trace);
  }

  /** A retrying trace turns autocommit on once, and last, when its retry does. */
  lemma RetryTraceCommitMode(reconnect: bool, events: seq<RunEvent>, inner: seq<RunEvent>)
    requires Autocommit(true) !in events
    requires Occurrences(Autocommit(true), inner) == 1 && OnlyRestoresAfterCommitMode(inner)
    ensures var t := [SetReconnect(false)] + events + [SetReconnect(true), Ping] + inner + [SetReconnect(reconnect)];
            Occurrences(Autocommit(true), t) == 1 && OnlyRestoresAfterCommitMode(t)
  {
    OccurrencesIn(Autocommit(true), events);
    RetryTraceOccurrences(Autocommit(true), reconnect, events, inner);
    WrappedTail([SetReconnect(false)] + events + [SetReconnect(true), Ping], inner, [SetReconnect(reconnect)]);
  }

  /** Autocommit is turned back on once, and last, in a run that does not retry. */
  lemma SettledCommitMode(reconnect: bool, b: TransactionData, conn: Connection, attempt: nat)
    requires !RetryTaken(reconnect, b, conn.Attempt(attempt))
    ensures var r := Execute(reconnect, b, conn, attempt);
            && Occurrences(Autocommit(true), r.trace) == 1
            && OnlyRestoresAfterCommitMode(r.trace)
  {
    var s := conn.Attempt(attempt);
    var a := RunAttempt(b.queries, s);
    AttemptCounts(b.queries, s);
    ExecuteSettlesTrace(reconnect, b, conn, attempt);
    SettledCounts(reconnect, b.retried, a.error);
    PushEventsCounts(a.queries);
    SettleTraceCommitMode(reconnect, a.events, Settled(reconnect, b.retried, a.error), PushEvents(a.queries, 0));
  }

  /** A settling trace turns autocommit on once, and last, when nothing before does. */
  lemma SettleTraceCommitMode(reconnect: bool, events: seq<RunEvent>, settled: seq<RunEvent>, pushes: seq<RunEvent>)
    requires forall e :: e in events ==> !e.Push? && e != Autocommit(true)
    requires forall e :: e in settled ==> !e.Push? && e != Autocommit(true)
    requires Autocommit(true) !in pushes
    ensures var t := [SetReconnect(false)] + events + settled + pushes + [Autocommit(true), SetReconnect(reconnect)];
            Occurrences(Autocommit(true), t) == 1 && OnlyRestoresAfterCommitMode(t)
  {
    SettleTraceOccurrences(Autocommit(true), reconnect, events, settled, pushes);
    OccurrencesIn(Autocommit(true), events);
    OccurrencesIn(Autocommit(true), settled);
    OccurrencesIn(Autocommit(true), pushes);
    SettleTraceTail(reconnect, [SetReconnect(false)] + events + settled, pushes);
  }

  // ---------------------------------------------------------------------
  // What the units end as

  /** No pair of the batch has finished. */
  predicate NoneFinished(queries: seq<QueryPair>)
  {
    forall j :: 0 <= j < |queries| ==> !queries[j].data.IsFinished()
  }

  /**
   * The pairs after one attempt over unfinished pairs: the finished ones
   * are a prefix that succeeded except possibly its last, a committed
   * attempt finished them all with SUCCESS, and the rest are untouched.
   */
  lemma AttemptFinishedPrefix(queries: seq<QueryPair>, s: AttemptScript)
    requires NoneFinished(queries)
    ensures var a := RunAttempt(queries, s);
            var qs := a.queries;
            && (forall i, j :: 0 <= i < j < |qs| && qs[j].data.IsFinished() ==>
                  qs[i].data.IsFinished() && qs[i].data.GetResultStatus() == QuerySuccess)
            && (a.error.None? ==>
                  forall j :: 0 <= j < |qs| ==> qs[j].data.IsFinished() && qs[j].data.GetResultStatus() == QuerySuccess)
            && (forall j :: 0 <= j < |qs| && !qs[j].data.IsFinished() ==> qs[j] == queries[j])
  {
    var a := RunAttempt(queries, s);
    AttemptOutcome(queries, s);
    forall j | 0 <= j < |a.queries| ensures a.queries[j].data.IsFinished() <==> j < a.executed {
      if j >= a.executed {
        assert a.queries[j] == queries[j];
      }
    }
    assert forall i :: 0 <= i < a.executed - 1 ==> s.Statement(i).Ok?;
  }

  /**
   * For a batch whose pairs start unfinished: the finished pairs form a
   * prefix of the batch, all of them succeeded except possibly the last,
   * a successful batch finished every pair with SUCCESS, and when no retry
   * was taken the unfinished pairs were not touched.
   */
  lemma {:induction false} FinishedUnitsFormAPrefix(reconnect: bool, b: TransactionData, conn: Connection, attempt: nat)
    requires NoneFinished(b.queries)
    ensures var r := Execute(reconnect, b, conn, attempt);
            var qs := r.batch.queries;
            && (forall i, j :: 0 <= i < j < |qs| && qs[j].data.IsFinished() ==>
                  qs[i].data.IsFinished() && qs[i].data.GetResultStatus() == QuerySuccess)
            && (r.batch.base.GetResultStatus() == QuerySuccess ==>
                  forall j :: 0 <= j < |qs| ==> qs[j].data.IsFinished() && qs[j].data.GetResultStatus() == QuerySuccess)
            && (!RetryTaken(reconnect, b, conn.Attempt(attempt)) ==>
                  forall j :: 0 <= j < |qs| && !qs[j].data.IsFinished() ==> qs[j] == b.queries[j])
    decreases if b.retried then 0 else 1
  {
    var s := conn.Attempt(attempt);
    if RetryTaken(reconnect, b, s) {
      ExecuteRetries(reconnect, b, conn, attempt);
      FinishedUnitsFormAPrefix(true, RetryBatch(b, s), conn, attempt + 1);
    } else {
      ExecuteSettlesTrace(reconnect, b, conn, attempt);
      ExecuteSettlesBatch(reconnect, b, conn, attempt);
      AttemptFinishedPrefix(b.queries, s);
    }
  }
}

=== FILE: transaction.dfy ===
/**
 * The transaction object (MySQLOO/include/Transaction.h,
 * MySQLOO/source/Transaction.cpp): its queue of pending queries, the
 * snapshot taken when it starts, and the callback chosen when it completes.
 */
module Transaction {
  import opened Wrappers
  import opened QueryData
  import opened Host
  import opened IQuery

  /** A query object (by identity) paired with the run it will execute. */
  datatype QueryPair = QueryPair(query: nat, data: IQueryData)

  /**
   * `TransactionData`: a transaction's run. `base` holds the fields every
   * run has; `queries` is the ordered batch; `retried` records the one
   * retry the run may take.
   */
  datatype TransactionData = TransactionData(base: IQueryData, queries: seq<QueryPair>, retried: bool)

  /** The transaction object's queue of queries added since it last started. */
  datatype TransactionQueue = TransactionQueue(queries: seq<QueryPair>)

  /** A new transaction object has nothing queued. */
  function NewTransaction(): (t: TransactionQueue)
    ensures |t.queries| == 0
  {
    TransactionQueue([])
  }

  /** A new `TransactionData`: an empty, never retried run with the default run fields. */
  function NewTransactionData(id: nat): (d: TransactionData)
    ensures !d.retried && d.queries == []
    ensures d.base.id == id && !d.base.IsFinished() && d.base.GetError() == ""
    ensures d.base.GetStatus() == QueryNotRunning && d.base.GetResultStatus() == QueryNone
    ensures d.base.HoldsNoReferences() && !d.base.IsFirstData()
  {
    TransactionData(NewQueryData(id), [], false)
  }

  /** What a successful `addQuery` produces: the transaction, the added query object, host events. */
  datatype QueryAdded = QueryAdded(transaction: TransactionQueue, query: IQueryState, events: seq<HostEvent>)

  /**
   * `addQuery(query)`: only plain queries are accepted. The query object
   * is held by the host if it had nothing running, the run `built` by its
   * `buildQueryData` is registered on it, and the pair goes to the back of
   * the transaction's queue.
   */
  function AddQuery(t: TransactionQueue, isPlainQuery: bool, queryId: nat, q: IQueryState, built: IQueryData, refs: CallbackRefs)
    : (r: Result<QueryAdded, string>)
    ensures r.Failure? <==> !isPlainQuery
    ensures r.Failure? ==> r.error == "Tried to pass non query to addQuery()"
    ensures r.Success? ==>
              var queries := r.value.transaction.queries;
              && |queries| == |t.queries| + 1
              && queries[..|t.queries|] == t.queries
              && queries[|t.queries|].query == queryId
              && queries[|t.queries|].data.id == built.id
              && r.value.query.running == q.running + [queries[|t.queries|].data]
              && queries[|t.queries|].data.IsFirstData() == (!q.hasBeenStarted || built.IsFirstData())
              && r.value.events == (if q.running == [] then [ReferenceTable] else [])
    ensures r.Success? ==> r.value.query.(running := q.running) == q
    ensures r.Success? ==>
              var d := r.value.transaction.queries[|t.queries|].data;
              && d.GetOnDataReference() == refs.onData && d.GetErrorReference() == refs.onError
              && d.GetAbortReference() == refs.onAborted && d.GetSuccessReference() == refs.onSuccess
              && d.(wasFirstData := built.wasFirstData, onDataReference := built.onDataReference,
                    errorReference := built.errorReference, abortReference := built.abortReference,
                    successReference := built.successReference) == built
  {
    if !isPlainQuery then Failure("Tried to pass non query to addQuery()")
    else
      var hold := if |q.running| == 0 then [ReferenceTable] else [];
      var added := AddQueryData(q, built, refs);
      var queries := t.queries + [QueryPair(queryId, added.data)];
      assert queries[..|t.queries|] == t.queries;
      Success(QueryAdded(TransactionQueue(queries), added.query, hold))
  }

  /** `clearQueries`: the queue becomes empty. */
  function ClearQueries(t: TransactionQueue): (r: TransactionQueue)
    ensures |r.queries| == 0
  {
    TransactionQueue([])
  }

  /** What `buildQueryData` produces: the emptied transaction and the new run. */
  datatype Built = Built(transaction: TransactionQueue, data: TransactionData)

  /**
   * `buildQueryData`: the new run takes the queue as it stands, in order,
   * and the transaction's queue is emptied.
   */
  function BuildQueryData(t: TransactionQueue, id: nat): (r: Built)
    ensures r.data.queries == t.queries
    ensures |r.transaction.queries| == 0
    ensures !r.data.retried && r.data.base == NewQueryData(id)
  {
    Built(ClearQueries(t), NewTransactionData(id).(queries := t.queries))
  }

  /**
   * Two runs built one after the other share no queued query: the second
   * holds exactly the queries added between the two builds.
   */
  lemma SuccessiveRunsDoNotOverlap(t: TransactionQueue, id1: nat, id2: nat,
                                                      queryId: nat, q: IQueryState, built: IQueryData, refs: CallbackRefs)
    ensures var first := BuildQueryData(t, id1);
            var added := AddQuery(first.transaction, true, queryId, q, built, refs);
            && added.Success?
            && first.data.queries == t.queries
            && BuildQueryData(added.value.transaction, id2).data.queries == [QueryPair(queryId, AddQueryData(q, built, refs).data)]
  {
    var first := BuildQueryData(t, id1);
    assert first.transaction.queries == [];
  }

  /** What `start` on a transaction produces: its emptied queue, its run, and the start's outcome. */
  datatype TransactionStarted = TransactionStarted(transaction: TransactionQueue, data: TransactionData, started: Started)

  /**
   * `start` on a transaction: on a connected database the queue is
   * snapshotted into a new run, which is registered and queued; on a
   * disconnected one nothing changes.
   */
  function StartTransaction(t: TransactionQueue, q: IQueryState, id: nat, refs: CallbackRefs, disconnected: bool)
    : (r: Result<TransactionStarted, string>)
    ensures r.Failure? <==> disconnected
    ensures r.Success? ==>
              && r.value.data.queries == t.queries
              && |r.value.transaction.queries| == 0
              && !r.value.data.retried
              && r.value.data.base == r.value.started.data
              && r.value.started.query.running == q.running + [r.value.data.base]
              && r.value.data.base.IsFirstData() == !q.hasBeenStarted
    ensures r.Success? ==>
              var started := r.value.started;
              && started.query.hasBeenStarted
              && started.query.(running := q.running, hasBeenStarted := q.hasBeenStarted) == q
              && started.events == (if q.running == [] then [ReferenceTable] else []) + [Enqueue(id)]
    ensures r.Success? ==>
              var base := r.value.data.base;
              && base.id == id && !base.IsFinished() && base.GetError() == ""
              && base.GetStatus() == QueryNotRunning && base.GetResultStatus() == QueryNone
              && base.GetOnDataReference() == refs.onData && base.GetErrorReference() == refs.onError
              && base.GetAbortReference() == refs.onAborted && base.GetSuccessReference() == refs.onSuccess
  {
    if disconnected then Failure("Database already disconnected.")
    else
      var built := BuildQueryData(t, id);
      var started := Start(q, built.data.base, refs, false).value;
      Success(TransactionStarted(built.transaction, built.data.(base := started.data), started))
  }

  /**
   * `clearQueries` only empties the transaction's queue: the queries it
   * held stay registered as running on their query objects.
   */
  lemma ClearedQueriesStayRegistered(t: TransactionQueue, queryId: nat, q: IQueryState, built: IQueryData, refs: CallbackRefs)
    ensures var added := AddQuery(t, true, queryId, q, built, refs).value;
            && |ClearQueries(added.transaction).queries| == 0
            && HasData(added.query.running, built.id)
  {
    var added := AddQuery(t, true, queryId, q, built, refs).value;
    assert added.query.running[|q.running|].id == built.id;
  }

  /** Clearing the queue before starting gives a run with nothing in it. */
  lemma ClearThenStartIsEmpty(t: TransactionQueue, q: IQueryState, id: nat, refs: CallbackRefs)
    ensures StartTransaction(ClearQueries(t), q, id, refs, false).Success?
    ensures StartTransaction(ClearQueries(t), q, id, refs, false).value.data.queries == []
  {
  }

  /** What `doCallback` produces: the completed run and the callbacks it fires. */
  datatype Callback = Callback(data: IQueryData, events: seq<HostEvent>)

  /**
   * `Transaction::doCallback`: the run becomes complete; a run without a
   * result fires nothing; an errored run fires its error reference with
   * the error text, or `onError` if it is first-data; a successful one
   * fires its success reference, or `onSuccess` if it is first-data.
   */
  function DoCallback(d: IQueryData): (r: Callback)
    ensures r.data == d.SetStatus(QueryComplete)
    ensures |r.events| <= 1
    ensures |r.events| == 1 <==>
              match d.GetResultStatus()
              case QueryNone => false
              case QueryError => d.GetErrorReference() != 0 || d.IsFirstData()
              case QuerySuccess => d.GetSuccessReference() != 0 || d.IsFirstData()
    ensures d.GetResultStatus() == QueryError && |r.events| == 1 ==>
              r.events[0] == (if d.GetErrorReference() != 0 then RunFunction(d.GetErrorReference(), Some(d.GetError()))
                              else RunCallback("onError", Some(d.GetError())))
    ensures d.GetResultStatus() == QuerySuccess && |r.events| == 1 ==>
              r.events[0] == (if d.GetSuccessReference() != 0 then RunFunction(d.GetSuccessReference(), None)
                              else RunCallback("onSuccess", None))
  {
    var completed := d.SetStatus(QueryComplete);
    match d.GetResultStatus()
    case QueryNone => Callback(completed, [])
    case QueryError =>
      Callback(completed, SelectCallback(d.GetErrorReference(), d.IsFirstData(), "onError", Some(d.GetError())))
    case QuerySuccess =>
      Callback(completed, SelectCallback(d.GetSuccessReference(), d.IsFirstData(), "onSuccess", None))
  }
}

=== FILE: transaction_run.dfy ===
/**
 * `Transaction::executeStatement` (MySQLOO/source/Transaction.cpp) as a
 * pure function. The connection is a scripted oracle giving, for the
 * first attempt and for the retry, the outcome of every call the run
 * makes; the run returns the final state of the batch and the trace of
 * the calls it made, in order.
 */
module TransactionRun {
  import opened Wrappers
  import opened QueryData
  import opened ClientApi
  import opened Transaction

  /** The calls a run makes on the database and on the completion queue. */
  datatype RunEvent =
    | SetReconnect(on: bool)   // set the database's auto-reconnect flag
    | Autocommit(on: bool)     // mysql_autocommit
    | Exec(index: nat)         // execute the batch's statement at `index`
    | Commit                   // mysql_commit
    | Ping                     // mysql_ping, which reconnects when auto-reconnect is on
    | Rollback                 // mysql_rollback
    | Push(index: nat)         // hand the pair at `index` to the finished queue
    | Notify(index: nat)       // wake a caller waiting on that pair's query

  /** The outcome of a call that may raise. */
  datatype Outcome = Ok | Throws(error: MySQLException)

  /**
   * What the connection does during one attempt: turning autocommit off,
   * each statement (statements beyond the list succeed), the commit, and
   * the ping that follows a lost connection.
   */
  datatype AttemptScript = AttemptScript(autocommitOff: Outcome, statements: seq<Outcome>, commitOk: bool, pingOk: bool)
  {
    function Statement(i: nat): Outcome
    {
      if i < |statements| then statements[i] else Ok
    }
  }

  /** The scripted connection: attempt 0, then the retry. */
  datatype Connection = Connection(first: AttemptScript, retry: AttemptScript)
  {
    function Attempt(n: nat): AttemptScript
    {
      if n == 0 then first else retry
    }
  }

  /** Whether every statement among the first `n` succeeds in this attempt. */
  predicate AllStatementsSucceed(s: AttemptScript, n: nat)
  {
    forall j :: 0 <= j < n ==> s.Statement(j).Ok?
  }

  /** Whether an attempt over `n` statements gets as far as the commit. */
  predicate ReachesCommit(s: AttemptScript, n: nat)
  {
    s.autocommitOff.Ok? && AllStatementsSucceed(s, n)
  }

  /**
   * The state of one statement's run after it executed: its result and
   * error are reset first, then it ends finished, with SUCCESS and no error
   * text, or with ERROR and the exception's text.
   */
  function Executed(d: IQueryData, outcome: Outcome): (r: IQueryData)
    ensures r.IsFinished()
    ensures outcome.Ok? ==> r.GetResultStatus() == QuerySuccess && r.GetError() == ""
    ensures outcome.Throws? ==> r.GetResultStatus() == QueryError && r.GetError() == outcome.error.What()
    ensures r.(finished := d.finished, resultStatus := d.resultStatus, errorText := d.errorText) == d
  {
    var reset := d.SetResultStatus(QueryNone).SetError("");
    match outcome
    case Ok => reset.SetResultStatus(QuerySuccess).SetFinished(true)
    case Throws(e) => reset.SetResultStatus(QueryError).SetError(e.What()).SetFinished(true)
  }

  /** Exec(from), ..., Exec(to - 1). */
  function ExecEvents(from: nat, to: nat): (r: seq<RunEvent>)
    requires from <= to
    ensures |r| == to - from
    ensures forall k :: 0 <= k < |r| ==> r[k] == Exec(from + k)
  {
    seq(to - from, k requires 0 <= k < to - from => Exec(from + k))
  }

  /**
   * The outcome of the statement loop, or of a whole attempt: the pairs,
   * the calls made, the exception that stopped it, how many statements ran.
   */
  datatype RunProgress = RunProgress(queries: seq<QueryPair>, events: seq<RunEvent>, error: Option<MySQLException>, executed: nat)

  /** The loop from `i` ran statements `i` .. `executed - 1`, in order. */
  ghost predicate RanInOrder(queries: seq<QueryPair>, i: nat, r: RunProgress)
  {
    && |r.queries| == |queries|
    && i <= r.executed <= |queries|
    && r.events == ExecEvents(i, r.executed)
  }

  /** The loop from `i` stopped at the first failing statement, and only there. */
  ghost predicate StoppedAtFirstFailure(queries: seq<QueryPair>, i: nat, s: AttemptScript, r: RunProgress)
  {
    && (r.error.None? <==> forall j :: i <= j < |queries| ==> s.Statement(j).Ok?)
    && (r.error.None? ==> r.executed == |queries|)
    && (r.error.Some? ==> i < r.executed && s.Statement(r.executed - 1) == Throws(r.error.value))
    && (forall j :: i <= j < r.executed - 1 ==> s.Statement(j).Ok?)
  }

  /** Statements the loop ran carry their outcome; the others are untouched. */
  ghost predicate UpdatedOnlyRan(queries: seq<QueryPair>, i: nat, s: AttemptScript, r: RunProgress)
    requires |r.queries| == |queries|
  {
    && (forall j :: 0 <= j < |queries| ==> r.queries[j].query == queries[j].query)
    && (forall j :: 0 <= j < |queries| && (j < i || r.executed <= j) ==> r.queries[j] == queries[j])
    && (forall j :: i <= j < r.executed && j < |queries| ==> r.queries[j].data == Executed(queries[j].data, s.Statement(j)))
  }

  /**
   * What the statement loop from index `i` achieves: statements run in
   * order, each reset just before it runs; the first failure stops the
   * loop, so later statements neither run nor change.
   */
  ghost predicate StatementsOutcome(queries: seq<QueryPair>, i: nat, s: AttemptScript, r: RunProgress)
  {
    && RanInOrder(queries, i, r)
    && StoppedAtFirstFailure(queries, i, s, r)
    && UpdatedOnlyRan(queries, i, s, r)
  }

  /** The statement loop from index `i`. */
  function RunStatements(queries: seq<QueryPair>, i: nat, s: AttemptScript): (r: RunProgress)
    requires i <= |queries|
    decreases |queries| - i
    ensures StatementsOutcome(queries, i, s, r)
  {
    if i == |queries| then
      var r := RunProgress(queries, [], None, i);
      assert ExecEvents(i, i) == [];
      r
    else
      var outcome := s.Statement(i);
      var updated := queries[i := queries[i].(data := Executed(queries[i].data, outcome))];
      match outcome
      case Throws(e) =>
        var r := RunProgress(updated, [Exec(i)], Some(e), i + 1);
        assert ExecEvents(i, i + 1) == [Exec(i)];
        r
      case Ok =>
        var rest := RunStatements(updated, i + 1, s);
        var r := RunProgress(rest.queries, [Exec(i)] + rest.events, rest.error, rest.executed);
        RanInOrderStep(updated, i, rest, r);
        StoppedStep(queries, updated, i, s, rest, r);
        UpdatedStep(queries, i, s, rest, r);
        r
  }

  lemma RanInOrderStep(queries: seq<QueryPair>, i: nat, rest: RunProgress, r: RunProgress)
    requires i < |queries|
    requires RanInOrder(queries, i + 1, rest)
    requires r == RunProgress(rest.queries, [Exec(i)] + rest.events, rest.error, rest.executed)
    ensures RanInOrder(queries, i, r)
  {
    assert |r.events| == r.executed - i;
    forall k | 0 <= k < |r.events| ensures r.events[k] == Exec(i + k) {
      if k > 0 { assert r.events[k] == rest.events[k - 1]; }
    }
  }

  lemma StoppedStep(queries: seq<QueryPair>, updated: seq<QueryPair>, i: nat, s: AttemptScript, rest: RunProgress, r: RunProgress)
    requires i < |queries| && |updated| == |queries| && s.Statement(i).Ok?
    requires RanInOrder(updated, i + 1, rest)
    requires StoppedAtFirstFailure(updated, i + 1, s, rest)
    requires r == RunProgress(rest.queries, [Exec(i)] + rest.events, rest.error, rest.executed)
    ensures StoppedAtFirstFailure(queries, i, s, r)
  {
    if r.error.None? {
      forall j | i <= j < |queries| ensures s.Statement(j).Ok? {
        if j > i { assert i + 1 <= j; }
      }
    }
  }

  lemma UpdatedStep(queries: seq<QueryPair>, i: nat, s: AttemptScript, rest: RunProgress, r: RunProgress)
    requires i < |queries| && s.Statement(i).Ok?
    requires var updated := queries[i := queries[i].(data := Executed(queries[i].data, Ok))];
             && |rest.queries| == |updated|
             && i + 1 <= rest.executed
             && UpdatedOnlyRan(updated, i + 1, s, rest)
    requires r == RunProgress(rest.queries, [Exec(i)] + rest.events, rest.error, rest.executed)
    ensures |r.queries| == |queries| && UpdatedOnlyRan(queries, i, s, r)
  {
    var updated := queries[i := queries[i].(data := Executed(queries[i].data, Ok))];
    forall j | i <= j < r.executed && j < |queries| ensures r.queries[j].data == Executed(queries[j].data, s.Statement(j)) {
      if j == i {
        assert r.queries[i] == updated[i];
      } else {
        assert updated[j] == queries[j];
      }
    }
    forall j | 0 <= j < |queries| && (j < i || r.executed <= j) ensures r.queries[j] == queries[j] {
      assert r.queries[j] == updated[j];
    }
  }

  /**
   * The body of the run's `try`: autocommit off, the statement loop, then
   * the commit, which is reached only when every statement succeeded; a
   * failed commit raises "commit failed" with `CR_UNKNOWN_ERROR`. What the
   * attempt does in detail is `AttemptOutcome`.
   */
  function RunAttempt(queries: seq<QueryPair>, s: AttemptScript): (a: RunProgress)
    ensures |a.queries| == |queries| && a.executed <= |queries|
    ensures forall j :: 0 <= j < |queries| ==> a.queries[j].query == queries[j].query
    ensures a.error.None? <==> ReachesCommit(s, |queries|) && s.commitOk
  {
    match s.autocommitOff
    case Throws(e) => RunProgress(queries, [Autocommit(false)], Some(e), 0)
    case Ok =>
      var st := RunStatements(queries, 0, s);
      if st.error.Some? then
        RunProgress(st.queries, [Autocommit(false)] + st.events, st.error, st.executed)
      else if s.commitOk then
        RunProgress(st.queries, [Autocommit(false)] + st.events + [Commit], None, st.executed)
      else
        RunProgress(st.queries, [Autocommit(false)] + st.events + [Commit], Some(CommitFailed), st.executed)
  }

  /**
   * One attempt in detail: its calls, which error stops it (the failed
   * switch to manual commit, the first failing statement, or the failed
   * commit), and which pairs it updated.
   */
  lemma AttemptOutcome(queries: seq<QueryPair>, s: AttemptScript)
    ensures var a := RunAttempt(queries, s);
            && a.events == [Autocommit(false)] + ExecEvents(0, a.executed) + (if ReachesCommit(s, |queries|) then [Commit] else [])
            && (ReachesCommit(s, |queries|) ==> a.executed == |queries|)
            && (ReachesCommit(s, |queries|) && !s.commitOk ==> a.error == Some(CommitFailed))
            && (s.autocommitOff.Throws? ==> a.error == Some(s.autocommitOff.error) && a.executed == 0)
            && (s.autocommitOff.Ok? && !AllStatementsSucceed(s, |queries|) ==>
                  && 0 < a.executed
                  && s.Statement(a.executed - 1).Throws?
                  && a.error == Some(s.Statement(a.executed - 1).error)
                  && AllStatementsSucceed(s, a.executed - 1))
            && (forall j :: 0 <= j < a.executed ==> a.queries[j].data == Executed(queries[j].data, s.Statement(j)))
            && (forall j :: a.executed <= j < |queries| ==> a.queries[j] == queries[j])
  {
  }

  /** The state of a run when `executeStatement` returns, the calls it made, and what it returned. */
  datatype RunResult = RunResult(batch: TransactionData, trace: seq<RunEvent>, returned: bool)

  /** Every pair's run marked unfinished, nothing else changed. */
  function ClearFinished(queries: seq<QueryPair>): (r: seq<QueryPair>)
    ensures |r| == |queries|
    ensures forall j :: 0 <= j < |queries| ==> !r[j].data.IsFinished() && r[j] == queries[j].(data := r[j].data)
    ensures forall j :: 0 <= j < |queries| ==> r[j].data.(finished := queries[j].data.finished) == queries[j].data
  {
    seq(|queries|, j requires 0 <= j < |queries| => queries[j].(data := queries[j].data.SetFinished(false)))
  }

  /** Before the retry: every pair unfinished, the batch marked retried. */
  function PrepareRetry(b: TransactionData): (r: TransactionData)
    ensures r.retried && r.base == b.base && r.queries == ClearFinished(b.queries)
  {
    b.(queries := ClearFinished(b.queries), retried := true)
  }

  /** The indices of the pairs pushed in `t`, in order. */
  function Pushes(t: seq<RunEvent>): seq<nat>
  {
    if t == [] then [] else (if t[0].Push? then [t[0].index] else []) + Pushes(t[1..])
  }

  predicate StrictlyIncreasing(s: seq<nat>)
  {
    forall i, j :: 0 <= i < j < |s| ==> s[i] < s[j]
  }

  lemma {:induction false} PushesAppend(a: seq<RunEvent>, b: seq<RunEvent>)
    ensures Pushes(a + b) == Pushes(a) + Pushes(b)
  {
    if a == [] {
      assert a + b == b;
    } else {
      assert (a + b)[0] == a[0];
      assert (a + b)[1..] == a[1..] + b;
      PushesAppend(a[1..], b);
    }
  }

  /**
   * What a stretch of the push loop does: only pushes, each followed by
   * its wake-up, and no wake-up that does not directly follow its push.
   */
  ghost predicate PushesOnly(t: seq<RunEvent>)
  {
    && (forall e :: e in t ==> e.Push? || e.Notify?)
    && (forall k :: 0 <= k < |t| && t[k].Push? ==> k + 1 < |t| && t[k + 1] == Notify(t[k].index))
    && (forall k :: 0 <= k < |t| && t[k].Notify? ==> 0 < k && t[k - 1] == Push(t[k].index))
  }

  /**
   * The push loop from `from`: every finished pair is handed to the
   * finished queue, and its query woken, in batch order; unfinished pairs
   * are skipped.
   */
  function PushEvents(queries: seq<QueryPair>, from: nat): (r: seq<RunEvent>)
    decreases |queries| - from
    ensures PushesOnly(r)
    ensures forall x :: x in Pushes(r) <==> from <= x < |queries| && queries[x].data.IsFinished()
    ensures StrictlyIncreasing(Pushes(r))
  {
    if from >= |queries| then []
    else
      var head := if queries[from].data.IsFinished() then [Push(from), Notify(from)] else [];
      var rest := PushEvents(queries, from + 1);
      PushStep(head, from, rest);
      head + rest
  }

  /** Putting one turn of the push loop, for pair `from`, before the turns for later pairs. */
  lemma PushStep(head: seq<RunEvent>, from: nat, rest: seq<RunEvent>)
    requires head == [] || head == [Push(from), Notify(from)]
    requires PushesOnly(rest) && StrictlyIncreasing(Pushes(rest))
    requires forall x :: x in Pushes(rest) ==> from < x
    ensures PushesOnly(head + rest)
    ensures Pushes(head + rest) == (if head == [] then [] else [from]) + Pushes(rest)
    ensures StrictlyIncreasing(Pushes(head + rest))
  {
    PushesAppend(head, rest);
    if head != [] {
      assert head[1..] == [Notify(from)];
      assert Pushes([Notify(from)]) == [];
      TurnShape(from, rest);
      TurnOrder(from, Pushes(rest));
    } else {
      assert head + rest == rest;
    }
  }

  /** One turn's push and wake-up, before a well-formed stretch, keep it well-formed. */
  lemma TurnShape(from: nat, rest: seq<RunEvent>)
    requires PushesOnly(rest)
    ensures PushesOnly([Push(from), Notify(from)] + rest)
  {
    var t := [Push(from), Notify(from)] + rest;
    forall k | 0 <= k < |t| && t[k].Push? ensures k + 1 < |t| && t[k + 1] == Notify(t[k].index) {
      if k >= 2 {
        assert t[k] == rest[k - 2] && t[k + 1] == rest[k - 1];
      }
    }
    forall k | 0 <= k < |t| && t[k].Notify? ensures 0 < k && t[k - 1] == Push(t[k].index) {
      if k >= 2 {
        assert t[k] == rest[k - 2];
        if k > 2 {
          assert t[k - 1] == rest[k - 3];
        }
      }
    }
  }

  /** An index below every later push keeps the pushes increasing. */
  lemma TurnOrder(from: nat, later: seq<nat>)
    requires StrictlyIncreasing(later)
    requires forall x :: x in later ==> from < x
    ensures StrictlyIncreasing([from] + later)
  {
    var p := [from] + later;
    forall i, j | 0 <= i < j < |p| ensures p[i] < p[j] {
      assert p[j] == later[j - 1] && p[j] in later;
      if i > 0 {
        assert p[i] == later[i - 1];
      }
    }
  }

  /**
   * The end of a run that did not retry: the finished pairs are pushed in
   * batch order, then autocommit is turned back on, the batch completes
   * and the scope guard restores the auto-reconnect flag.
   */
  function Finish(reconnect: bool, b: TransactionData, trace: seq<RunEvent>): (r: RunResult)
    ensures r.returned
    ensures r.batch.base.GetStatus() == QueryComplete
    ensures r.batch.(base := b.base) == b && r.batch.base.(status := b.base.status) == b.base
    ensures |trace| + 2 <= |r.trace| && r.trace[..|trace|] == trace
    ensures r.trace[|r.trace| - 2..] == [Autocommit(true), SetReconnect(reconnect)]
    ensures var pushed := r.trace[|trace|..|r.trace| - 2];
            && PushesOnly(pushed)
            && StrictlyIncreasing(Pushes(pushed))
            && (forall x :: x in Pushes(pushed) <==> 0 <= x < |b.queries| && b.queries[x].data.IsFinished())
  {
    var pushed := PushEvents(b.queries, 0);
    var t := trace + pushed + [Autocommit(true), SetReconnect(reconnect)];
    assert t[|trace|..|t| - 2] == pushed;
    RunResult(b.(base := b.base.SetStatus(QueryComplete)), t, true)
  }

  /**
   * `executeStatement(connection, b)`, entered with the database's
   * auto-reconnect flag equal to `reconnect`, running attempt `attempt`
   * of `conn`. A lost connection is retried by calling the run again,
   * once: the retried batch has `retried` set, so the recursion stops.
   */
  function Execute(reconnect: bool, b: TransactionData, conn: Connection, attempt: nat): (r: RunResult)
    decreases if b.retried then 0 else 1
    ensures r.returned
    ensures r.batch.base.GetStatus() == QueryComplete
    ensures |r.batch.queries| == |b.queries|
    ensures forall j :: 0 <= j < |b.queries| ==> r.batch.queries[j].query == b.queries[j].query
    ensures r.batch.base.id == b.base.id
    ensures r.batch.base.(status := b.base.status, resultStatus := b.base.resultStatus, errorText := b.base.errorText) == b.base
  {
    var s := conn.Attempt(attempt);
    var running := b.(base := b.base.SetStatus(QueryRunning));
    var a := RunAttempt(b.queries, s);
    var begun := [SetReconnect(false)] + a.events;
    match a.error
    case None =>
      Finish(reconnect, running.(queries := a.queries, base := running.base.SetResultStatus(QuerySuccess)), begun)
    case Some(e) =>
      var failed := running.(queries := a.queries, base := running.base.SetResultStatus(QueryError).SetError(e.What()));
      if reconnect && !b.retried && IsConnectionLost(e.GetErrorCode()) then
        var probed := begun + [SetReconnect(true), Ping];
        if s.pingOk then
          var inner := Execute(true, PrepareRetry(failed), conn, attempt + 1);
          RunResult(inner.batch, probed + inner.trace + [SetReconnect(reconnect)], inner.returned)
        else
          Finish(reconnect, failed, probed + [Rollback])
      else
        Finish(reconnect, failed, begun + [Rollback])
  }

  /** A run as the worker starts it: attempt 0. */
  function Run(reconnect: bool, b: TransactionData, conn: Connection): RunResult
  {
    Execute(reconnect, b, conn, 0)
  }
}

=== FILE: wrappers.dfy ===
/** Failure-carrying values used wherever the modelled code throws or returns nothing. */
module Wrappers {

  /** A value that may be absent (a null pointer, a missing argument). */
  datatype Option<+T> = None | Some(value: T)

  /** The outcome of an operation that either yields a value or raises an error. */
  datatype Result<+T, +E> = Success(value: T) | Failure(error: E)
}
